=== FILE: README.md ===
# JCDeferredShading camera, modelled in Dafny

JCDeferredShading is a small deferred renderer for Unity. Its camera component
`JCDSCamera` does four things:

- In `Awake` it checks that the half-float render-texture format is supported.
  It then creates a three-target G-buffer and a one-target result buffer, and
  snapshots the scene's directional and point lights.
- In `OnPreRender` it resizes both buffers to the screen and binds the
  G-buffer for the geometry pass together with the result buffer, which
  holds depth.
- In `OnPostRender` it accumulates lighting into the result buffer:
  - one full-screen quad per directional light (shader pass 0 or 1);
  - one light-volume mesh per point light (pass 2);
  - then it returns to the screen and composites with pass 3.
- In `OnDestroy` it destroys the buffers.

The model treats every engine call as a command. Each callback becomes a pure
function from the component's state to the sequence of commands it issues.
Where the component would throw a null-reference exception, the callback ends
with outcome `NullReference`, and the trace holds the commands issued before
the throw. The engine rejects `Graphics.DrawMeshNow` with a null mesh, so
the state records whether `pointLightMesh` is assigned. A frame that reaches
a point light without one ends with outcome `MeshRejected`, and its trace
stops just before that light's mesh draw.

Modules:

- `Seqs`: `Option` (a C# reference that may be null), `Filter`, `Map`,
  `Repeat` and their concatenation lemmas.
- `Geometry`: vectors and colours over `real`.
- `Backend`: the `GraphicsDeviceType` classification and the pass selection
  of `DrawScreenQuad`.
- `Commands`: the command vocabulary (buffers, shader properties, passes,
  clears, draws) and the fixed screen quad.
- `ScreenQuad`: `DrawScreenQuad`.
- `Lights`: lights, their shader parameters, the per-light command groups and
  the two light loops.
- `DeferredCamera`: the component state and `Awake`, `CollectLights`,
  `OnPreRender`, `OnPostRender` and `OnDestroy`. It includes loop-form
  methods that mirror the C# loops.
- `Protocol`: the frame state machine, written as an automaton over
  commands. It is an independent reference for command ordering, and the
  model proves that a whole frame is accepted by it:
  - idle (resizes allowed), then G-buffer bound;
  - result target active and cleared;
  - directional lights, then point lights;
  - display cleared, then composite.

Three details of the code shape the model:

- Lights are collected in `Awake` and whenever `CollectLights` is called.
  A frame does not collect them, so the camera state carries the light
  arrays.
- The result buffer is cleared to depth 0.0
  (`ClearActiveRenderTexture(true, true, black, 0)`). The composite's
  `GL.Clear` uses the engine's default depth of 1.0.
- The quad's vertices are emitted in the order (-1,-1), (-1,1), (1,1), (1,-1).
  With y pointing up, that order is clockwise.

## Model

| member | source | states |
|---|---|---|
| Backend.SelectPass | Assets/JCDeferredShading/JCDSCamera.cs:183-196 | The selected pass is `pass` or `pass + 1`. It is `pass` if and only if the backend is OpenGL-like or the quad goes to the screen, and `pass + 1` if and only if neither holds. |
| Backend.DirectionalPassIndex | Assets/JCDeferredShading/JCDSCamera.cs:137 | A directional light (base pass 0, off screen) uses pass 0 exactly on OpenGL-like backends and pass 1 exactly on all others. |
| Backend.CompositePassIsBackendIndependent | Assets/JCDeferredShading/JCDSCamera.cs:156 | The composite (base pass 3, on screen) uses pass 3 on every backend. |
| Commands.QuadVerticesSpanClipSpace | Assets/JCDeferredShading/JCDSCamera.cs:197-208 | The screen quad has four distinct vertices at the corners of [-1,1]x[-1,1] in z = 0, each with the texture coordinate ((x+1)/2, (y+1)/2). |
| ScreenQuad.DrawScreenQuadCommands | Assets/JCDeferredShading/JCDSCamera.cs:181-209 | A screen quad is exactly one draw, of the fixed quad, and it comes last. Exactly one pass selection is made, and it is `SelectPass`. A black clear is issued if and only if `clearScreen` is set, and then it comes first. |
| ScreenQuad.DrawScreenQuadNoLightCommands | Assets/JCDeferredShading/JCDSCamera.cs:181-209 | A screen quad sets no light parameter (no direction, position, range or colour of any light), draws no mesh and does not change the render target (no buffer activation, target binding or reset). |
| ScreenQuad.QuadGeometryIndependentOfPass | Assets/JCDeferredShading/JCDSCamera.cs:196-208 | The vertex list is the same for every pass, flag and backend: only the pass index carries the flip. |
| Lights.Entries | Assets/JCDeferredShading/JCDSCamera.cs:128-141 | A null light array is treated as having no entries, and otherwise its entries are used as they are. |
| Lights.Present | Assets/JCDeferredShading/JCDSCamera.cs:131-145 | The non-null lights are exactly the lights of the non-null entries, and there are never more of them than entries. When no entry is null they are the entries' lights, position by position. When all entries are null there are none. |
| Lights.DirectionParam | Assets/JCDeferredShading/JCDSCamera.cs:134-135 | The xyz part is the opposite of the light's forward vector: the two add up to zero. The w part is the intensity. |
| Lights.RangeParam | Assets/JCDeferredShading/JCDSCamera.cs:149 | The range parameter's x is the reciprocal of the range, y is the intensity, and z and w are zero. |
| Lights.MeshDrawOf | Assets/JCDeferredShading/JCDSCamera.cs:151 | The light volume is drawn at the light's position with a uniform scale of twice the range. |
| Lights.DirectionalPassDraws | Assets/JCDeferredShading/JCDSCamera.cs:132-137 | A directional light issues one draw, of the screen quad, with one pass selection (pass 0 or 1 by backend) and no mesh draw. |
| Lights.DirectionalPassParams | Assets/JCDeferredShading/JCDSCamera.cs:134-135 | A directional light sets exactly one direction parameter: the negated forward vector with the intensity in w. |
| Lights.DirectionalPassLayout | Assets/JCDeferredShading/JCDSCamera.cs:134-137 | The direction and the colour are set before the quad, the quad is the last command, and the light does not change the render target (no buffer activation, target binding or reset). |
| Lights.PointPassDraws | Assets/JCDeferredShading/JCDSCamera.cs:145-151 | A point light issues exactly one draw, which is the light-volume mesh, and exactly one pass selection, which is `SetPass(2)`. |
| Lights.PointPassParams | Assets/JCDeferredShading/JCDSCamera.cs:147-149 | A point light sets no directional-light parameter: neither the direction vector nor the directional colour. |
| Lights.PointPassLayout | Assets/JCDeferredShading/JCDSCamera.cs:147-151 | Position, colour and range parameter are set, in that order, before the pass and the mesh. The mesh draw is last, and the light does not change the render target (no buffer activation, target binding or reset). |
| Lights.DirectionalPassesSkipNulls | Assets/JCDeferredShading/JCDSCamera.cs:128-139 | The directional loop over an array issues exactly what it issues over the same array with its null entries removed. |
| Lights.PointPassesSkipNulls | Assets/JCDeferredShading/JCDSCamera.cs:141-153 | The point loop over an array issues exactly what it issues over the same array with its null entries removed. |
| Lights.DirectionalPassesDrawCount | Assets/JCDeferredShading/JCDSCamera.cs:128-139 | The directional loop draws once per non-null entry of the entry sequence, so null entries draw nothing. A null array reaches the loop as no entries, through `Entries`. |
| Lights.DirectionalPassesPasses | Assets/JCDeferredShading/JCDSCamera.cs:128-139 | The directional loop's pass selections are the backend's directional pass, once per non-null light. |
| Lights.DirectionalPassesOrder | Assets/JCDeferredShading/JCDSCamera.cs:128-139 | The direction parameters appear in array order, one per non-null light. |
| Lights.DirectionalPassesOnlyQuads | Assets/JCDeferredShading/JCDSCamera.cs:128-139 | The directional loop draws no mesh and does not change the render target (no buffer activation, target binding or reset). |
| Lights.PointPassesDrawCount | Assets/JCDeferredShading/JCDSCamera.cs:141-153 | The point loop draws once per non-null entry. |
| Lights.PointPassesPasses | Assets/JCDeferredShading/JCDSCamera.cs:141-153 | The point loop's pass selections are `SetPass(2)`, once per non-null light. |
| Lights.PointPassesOrder | Assets/JCDeferredShading/JCDSCamera.cs:141-153 | The mesh draws appear in array order, one per non-null light, each at that light's position and size. |
| Lights.PointPassesNoDirections | Assets/JCDeferredShading/JCDSCamera.cs:141-153 | The point loop sets no directional-light parameter (neither direction nor directional colour) and does not change the render target (no buffer activation, target binding or reset). |
| DeferredCamera.Awake | Assets/JCDeferredShading/JCDSCamera.cs:52-92 | No state is created if and only if the half-float format is unsupported. Otherwise it creates a 3-target half-float G-buffer with no depth mask and a 1-target 8-bit result buffer with mask [true], both point-filtered and screen-sized. The state records whether the point-light mesh is assigned and holds the given light arrays. |
| DeferredCamera.CollectLights | Assets/JCDeferredShading/JCDSCamera.cs:175-179 | Both light arrays are replaced. The buffers and the mesh flag are left unchanged. |
| DeferredCamera.Teardown | Assets/JCDeferredShading/JCDSCamera.cs:94-108 | Afterwards both buffers are gone, and the lights and the mesh flag are untouched. Only destructions are issued, one for each buffer that existed and none for a missing one, and the G-buffer is destroyed before the result buffer. |
| DeferredCamera.TeardownIdempotent | Assets/JCDeferredShading/JCDSCamera.cs:94-108 | A second teardown destroys nothing and leaves the state unchanged. |
| DeferredCamera.PreRenderResizesBeforeBind | Assets/JCDeferredShading/JCDSCamera.cs:110-116 | Pre-render completes if and only if both buffers exist. Without a G-buffer nothing is issued. Without a result buffer only the G-buffer resize is issued. A completed pre-render is three commands: the G-buffer resize to the screen, then the result-buffer resize, then the single bind of the G-buffer with the result buffer's depth at index 0. |
| DeferredCamera.PostRenderNullBuffers | Assets/JCDeferredShading/JCDSCamera.cs:118-126 | Post-render completes if and only if both buffers exist and the point loop can draw (a mesh is assigned or no point light is non-null). It fails with a null reference if and only if a buffer is missing. Without a result buffer nothing is issued. Without a G-buffer it issues only the activation and the clear. |
| DeferredCamera.PostRenderDrawCount | Assets/JCDeferredShading/JCDSCamera.cs:118-157 | A frame that completes (both buffers exist and the point loop can draw) draws exactly (non-null directional lights) + (non-null point lights) + 1 times. |
| DeferredCamera.PostRenderPasses | Assets/JCDeferredShading/JCDSCamera.cs:128-156 | In a frame that completes, the pass selections are, in order: the directional pass once per directional light, pass 2 once per point light, and pass 3 last. |
| DeferredCamera.PostRenderDirectionOrder | Assets/JCDeferredShading/JCDSCamera.cs:128-139 | Across a frame that completes, the direction parameters are the non-null directional lights' parameters in array order. |
| DeferredCamera.PostRenderMeshOrder | Assets/JCDeferredShading/JCDSCamera.cs:141-153 | Across a frame that completes, the mesh draws are the non-null point lights' volumes in array order. |
| DeferredCamera.LightLoopsKeepTarget | Assets/JCDeferredShading/JCDSCamera.cs:128-153 | Neither light loop changes the render target: no command of either activates a buffer, binds targets or resets. |
| DeferredCamera.PostRenderAroundLoops | Assets/JCDeferredShading/JCDSCamera.cs:118-157 | A completed frame is the prologue, then the two light loops, then the reset, the black clear, pass 3 and the quad. |
| DeferredCamera.PostRenderShape | Assets/JCDeferredShading/JCDSCamera.cs:118-157 | A completed frame starts by activating result slot 0 and clearing it, and ends with the reset, the black clear, pass 3 and the quad. The render target changes nowhere else: the activation and that single reset are the only target changes. |
| DeferredCamera.AwakeEnablesFrame | Assets/JCDeferredShading/JCDSCamera.cs:52-157 | After a successful `Awake`, pre-render completes. Post-render completes if and only if a mesh was assigned or no point light is non-null, and otherwise its mesh draw is rejected. Teardown destroys both buffers, and after it a frame fails before issuing any command. |
| DeferredCamera.BeforeFirstMesh | Assets/JCDeferredShading/JCDSCamera.cs:151 | The commands issued before a rejected mesh draw are a prefix of the trace with no mesh draw in it. When the prefix is shorter than the trace, the next command is a mesh draw. |
| DeferredCamera.BeforeFirstMeshFilter | Assets/JCDeferredShading/JCDSCamera.cs:151 | The cut is shorter than the trace if and only if the trace draws a mesh, and it then stops at the first mesh draw in the trace. |
| DeferredCamera.PointPassBeforeMesh | Assets/JCDeferredShading/JCDSCamera.cs:147-151 | A point light whose mesh draw is rejected has issued its position, colour and range parameters and its pass, and nothing more. |
| Lights.PointPassesConcat | Assets/JCDeferredShading/JCDSCamera.cs:141-153 | The point loop over two consecutive runs of entries is the loop over the first run followed by the loop over the second. |
| Lights.PresentNonEmpty | Assets/JCDeferredShading/JCDSCamera.cs:141-145 | An array with a non-null entry has a non-null light. |
| DeferredCamera.PointLoopRejects | Assets/JCDeferredShading/JCDSCamera.cs:141-153 | If the point loop has drawn nothing before a non-null entry, a rejected frame stops at that entry: it issues that light's parameters and pass and then stops. |
| DeferredCamera.MissingMeshTrace | Assets/JCDeferredShading/JCDSCamera.cs:118-153 | A rejected frame is the prologue, the whole directional loop and the point loop up to its first mesh draw. |
| DeferredCamera.PostRenderMissingMeshStops | Assets/JCDeferredShading/JCDSCamera.cs:141-153 | With both buffers, no mesh and a non-null point light, the mesh draw is rejected. The commands issued are a strict prefix of the frame the same camera would issue with a mesh, and they stop exactly at the first point light's mesh draw. |
| DeferredCamera.PostRenderMissingMeshNoComposite | Assets/JCDeferredShading/JCDSCamera.cs:141-157 | Such a frame draws no mesh and never resets the render target, so the composite is never reached. The activation of the result buffer at its start is its only target change. |
| DeferredCamera.FinishFrame | Assets/JCDeferredShading/JCDSCamera.cs:155-156 | Appending the reset and the composite to the lit commands gives the post-render run of a frame that completes. |
| DeferredCamera.AbortFrame | Assets/JCDeferredShading/JCDSCamera.cs:151 | Stopping at the rejected mesh draw gives the post-render run of a frame without a mesh. |
| DeferredCamera.DirectionalLoop | Assets/JCDeferredShading/JCDSCamera.cs:128-139 | The counted loop with its per-entry null check issues exactly the directional command groups of the non-null lights, in order. |
| DeferredCamera.PointLoop | Assets/JCDeferredShading/JCDSCamera.cs:141-153 | The counted point loop is rejected if and only if no mesh is assigned and some light is non-null. Otherwise it issues exactly the point command groups of the non-null lights, in order. When rejected, it issues the point trace up to its first mesh draw, which is strictly shorter. |
| DeferredCamera.OnPostRender | Assets/JCDeferredShading/JCDSCamera.cs:118-157 | The imperative callback issues the same trace, with the same outcome, as the functional post-render model, including the frame cut at a rejected mesh draw. |
| Protocol.DirectionalPassAdvance | Assets/JCDeferredShading/JCDSCamera.cs:134-137 | One directional light is an allowed cycle of the directional phase. |
| Protocol.DirectionalPassesAdvance | Assets/JCDeferredShading/JCDSCamera.cs:128-139 | Any directional light array keeps the state machine in the directional phase. |
| Protocol.PointPassAdvance | Assets/JCDeferredShading/JCDSCamera.cs:147-151 | One point light, entered from either lighting phase, is allowed and ends in the point phase. |
| Protocol.PointPassesAdvance | Assets/JCDeferredShading/JCDSCamera.cs:141-153 | Any point light array, after the directional lights, leaves the machine in a lighting phase. |
| Protocol.PrologueAdvance | Assets/JCDeferredShading/JCDSCamera.cs:120-126 | Activation, clear and texture binding take the bound G-buffer into the directional phase. |
| Protocol.EpilogueAdvance | Assets/JCDeferredShading/JCDSCamera.cs:155-156 | The reset and the composite finish the frame from either lighting phase. |
| Protocol.PreRenderAdvance | Assets/JCDeferredShading/JCDSCamera.cs:110-116 | A completed pre-render takes the idle machine to the bound G-buffer. |
| Protocol.FrameFollowsProtocol | Assets/JCDeferredShading/JCDSCamera.cs:110-157 | The pre-render commands followed by the post-render commands of a camera with both buffers form a whole frame accepted by the state machine, when the point loop can draw. |

## Left out

- Unity itself is not part of this model. That covers `SystemInfo`, `Screen`, `Shader.Find`, `Shader.PropertyToID`, `Material` and the `GL` and `Graphics` calls. They become parameters (device type, format support, screen size) or abstract commands.
- `JCDSRenderTexture` is not part of this model. A buffer set is its constructor arguments; `ResetSize`, `SetActiveRenderTexture`, `SetMultipleRenderTargets`, `ClearActiveRenderTexture`, `ResetActiveRenderTexture` and `Destroy` are commands, and their effect on the GPU is not modelled. `GetRenderTexture(i)` has no command of its own: it is folded into the `source` and `slot` of the `SetTexture` command it feeds.
- Shader programs and the lighting mathematics they perform are not modelled. Only the parameters handed to them are.
- Floating point is modelled as exact `real` arithmetic. No rounding, NaN or infinity is modelled.
- Lights.RangeParam: requires a non-zero range. The C# code divides by `light.range` in IEEE arithmetic, where a zero range gives infinity, and `real` has no such value.
- Lights.PointPasses, Lights.PointPass, DeferredCamera.PostRender and the lemmas about them carry the same non-zero-range precondition (`RangesNonZero`).
- The point-light mesh is modelled only by whether it is assigned. `DrawMesh` carries only the transform. The engine's rejection of a null mesh in `Graphics.DrawMeshNow` is engine behaviour and is not visible in the component. The model assumes it stops the callback and records it as outcome `MeshRejected`.
- The completed-frame lemmas (`PostRenderDrawCount`, `PostRenderPasses`, `PostRenderDirectionOrder`, `PostRenderMeshOrder`, `PostRenderAroundLoops`, `PostRenderShape`, `Protocol.FrameFollowsProtocol`) require that the point loop can draw. The frames where it cannot are covered by `PostRenderMissingMeshStops` and `PostRenderMissingMeshNoComposite`.
- `JCDSRenderTexture.ClearActiveRenderTexture` is not part of this model, so it is not known which of its two flags selects depth and which selects colour. The `ClearActive` command keeps the two flags in call order, and the one call passes `true` for both.
- The roles of the last two arguments of `JCDSRenderTexture.SetMultipleRenderTargets` are assumed: the result buffer is taken as the depth source and 0 as the index of its depth texture, following the field comment at JCDSCamera.cs:31 that the result buffer holds depth. `JCDSRenderTexture` is not part of this model. The `SetMultipleRenderTargets` command keeps the two buffers and the index of the call at :115 in call order.
- `GL.PushMatrix`, `GL.Begin`, `GL.End` and `GL.PopMatrix` are folded into the single `DrawQuad` command.
- `OnGUI` and the `debug` flag are left out: the debug overlay is a display aid, not part of the frame protocol.
- The static singleton `instance` is left out: it is only a global handle, and the frame protocol does not read it.
- `Destroy(this)` after a failed format check is modelled as `Awake` returning no state. The error log message is left out.
- The directional-light intensity property id (`shaderPropId_dirLightIntensity`) is declared but never set in the code. The intensity travels in the direction vector's w.

=== FILE: backend.dfy ===
/** The graphics backend classification `DrawScreenQuad` performs, and the
    shader pass it derives from it. */
module Backend {

  /** The values of Unity's `GraphicsDeviceType` the model distinguishes;
      every other device the engine may report is `OtherDevice`. */
  datatype DeviceType =
    | OpenGL2 | OpenGLCore | OpenGLES2 | OpenGLES3
    | Direct3D9 | Direct3D11 | Direct3D12
    | Metal | Vulkan | NullDevice | OtherDevice

  /** The classifier of `DrawScreenQuad`: four device types count as
      OpenGL-like. */
  predicate IsOpenGLLike(d: DeviceType) {
    d == OpenGL2 || d == OpenGLCore || d == OpenGLES2 || d == OpenGLES3
  }

  /** The shader pass a screen quad is drawn with: the base pass when the
      backend is OpenGL-like or the quad is the final on-screen pass, the
      flipped variant `pass + 1` otherwise. */
  function SelectPass(d: DeviceType, pass: int, isScreen: bool): (r: int)
    ensures r == pass || r == pass + 1
    ensures r == pass <==> IsOpenGLLike(d) || isScreen
    ensures r == pass + 1 <==> !IsOpenGLLike(d) && !isScreen
  {
    var isUvUpsideDown := IsOpenGLLike(d) || isScreen;
    if isUvUpsideDown then pass else pass + 1
  }

  /** The pass a directional light is drawn with (base pass 0, off screen). */
  function DirectionalPassIndex(d: DeviceType): (r: int)
    ensures r == 0 <==> IsOpenGLLike(d)
    ensures r == 1 <==> !IsOpenGLLike(d)
  {
    SelectPass(d, 0, false)
  }

  /** The final composite (base pass 3, on screen) uses pass 3 on every backend. */
  lemma CompositePassIsBackendIndependent(d: DeviceType, e: DeviceType)
    ensures SelectPass(d, 3, true) == SelectPass(e, 3, true) == 3
  {
  }
}

=== FILE: camera.dfy ===
/** The camera component: buffer creation in `Awake`, the per-frame
    `OnPreRender` / `OnPostRender` command traces, and `OnDestroy`. */
module DeferredCamera {
  import opened Seqs
  import opened Geometry
  import opened Backend
  import opened Commands
  import opened ScreenQuad
  import opened Lights

  datatype TextureFormat = ARGBHalf | ARGB32
  datatype FilterMode = PointFilter

  /** The constructor arguments of a buffer set; what the buffer set does
      with them is outside the model. `depthMask` is the array handed to
      `ValueToMask` (null for the G-buffer). */
  datatype BufferSet = BufferSet(
    count: nat, width: int, height: int,
    depthMask: Option<seq<bool>>,
    format: TextureFormat, filter: FilterMode, useOwnDepth: bool)

  datatype Screen = Screen(width: int, height: int)

  /** The fields of the component the frame protocol reads.
      `hasPointLightMesh` says whether the public `pointLightMesh` field has
      been assigned; it is null unless the scene sets it. */
  datatype CameraState = CameraState(
    gbuffer: Option<BufferSet>,
    result: Option<BufferSet>,
    hasPointLightMesh: bool,
    dirLights: LightArray,
    pointLights: LightArray)

  /** How a callback ends: normally, by dereferencing a missing buffer, or
      because the engine rejects `Graphics.DrawMeshNow` of a null mesh. */
  datatype Outcome = Completed | NullReference | MeshRejected

  /** The commands a callback issued, up to its end or its failure. */
  datatype Run = Run(commands: seq<Command>, outcome: Outcome)

  /** The format check of `Awake` and the two buffer sets it creates. When
      the half-float format is unsupported the component removes itself and
      no buffer is created. */
  function Awake(halfFloatSupported: bool, screen: Screen, hasMesh: bool,
                 dirs: LightArray, points: LightArray): (c: Option<CameraState>)
    ensures c.None? <==> !halfFloatSupported
    ensures c.Some? ==>
      && c.value.gbuffer == Some(BufferSet(3, screen.width, screen.height, None, ARGBHalf, PointFilter, false))
      && c.value.result == Some(BufferSet(1, screen.width, screen.height, Some([true]), ARGB32, PointFilter, false))
      && c.value.hasPointLightMesh == hasMesh
      && c.value.dirLights == dirs && c.value.pointLights == points
  {
    if !halfFloatSupported then None
    else
      var c := CameraState(
        Some(BufferSet(3, screen.width, screen.height, None, ARGBHalf, PointFilter, false)),
        Some(BufferSet(1, screen.width, screen.height, Some([true]), ARGB32, PointFilter, false)),
        hasMesh, None, None);
      Some(CollectLights(c, dirs, points))
  }

  /** `CollectLights`: replaces the light snapshot and nothing else. */
  function CollectLights(c: CameraState, dirs: LightArray, points: LightArray): (c': CameraState)
    ensures c'.gbuffer == c.gbuffer && c'.result == c.result
    ensures c'.hasPointLightMesh == c.hasPointLightMesh
    ensures c'.dirLights == dirs && c'.pointLights == points
  {
    c.(dirLights := dirs, pointLights := points)
  }

  /** `OnPreRender`: resize the G-buffer, then the result buffer, to the
      screen, then bind the G-buffer with the result buffer's depth. */
  function PreRender(c: CameraState, screen: Screen): Run {
    if c.gbuffer.None? then Run([], NullReference)
    else if c.result.None? then Run([ResetSize(GBuffer, screen.width, screen.height)], NullReference)
    else Run([ResetSize(GBuffer, screen.width, screen.height),
              ResetSize(ResultBuffer, screen.width, screen.height),
              SetMultipleRenderTargets(GBuffer, ResultBuffer, 0)], Completed)
  }

  const ActivateResult := SetActive(ResultBuffer, 0)
  const ClearResult := ClearActive(true, true, Black, 0.0)

  /** The four textures handed to the composite material. */
  const BindTextures := [
    SetTexture(DiffuseBuffer, GBuffer, 0),
    SetTexture(NormalBuffer, GBuffer, 1),
    SetTexture(PositionBuffer, GBuffer, 2),
    SetTexture(ResultBufferTexture, ResultBuffer, 0)
  ]

  /** `DrawScreenQuad(mtrl, 3, true, true)`. */
  function Composite(d: DeviceType): seq<Command> {
    DrawScreenQuad(d, 3, true, true)
  }

  /** The trace of a frame that reaches the composite: activation, clear
      and texture bindings, the two light loops, the reset and the
      composite. */
  function FullFrame(c: CameraState, d: DeviceType): seq<Command>
    requires RangesNonZero(Entries(c.pointLights))
  {
    PostRenderPrologue + DirectionalPasses(Entries(c.dirLights), d)
    + PointPasses(Entries(c.pointLights)) + PostRenderEpilogue(d)
  }

  /** The point loop can draw: a mesh is assigned, or there is no non-null
      point light to draw it for. */
  predicate MeshAvailable(c: CameraState) {
    c.hasPointLightMesh || Present(Entries(c.pointLights)) == []
  }

  /** The commands of `t` before its first mesh draw: what is issued when
      that draw is rejected. */
  function BeforeFirstMesh(t: seq<Command>): (r: seq<Command>)
    ensures |r| <= |t| && r == t[..|r|]
    ensures forall i :: 0 <= i < |r| ==> !r[i].DrawMesh?
    ensures |r| < |t| ==> t[|r|].DrawMesh?
  {
    if |t| == 0 || t[0].DrawMesh? then []
    else [t[0]] + BeforeFirstMesh(t[1..])
  }

  /** `OnPostRender` on device `d`. Without a mesh, the first point light
      gets its parameters and pass, and the frame stops at its mesh draw. */
  function PostRender(c: CameraState, d: DeviceType): Run
    requires RangesNonZero(Entries(c.pointLights))
  {
    if c.result.None? then Run([], NullReference)
    else if c.gbuffer.None? then Run([ActivateResult, ClearResult], NullReference)
    else if MeshAvailable(c) then Run(FullFrame(c, d), Completed)
    else Run(BeforeFirstMesh(FullFrame(c, d)), MeshRejected)
  }

  /** `OnDestroy`: destroy each buffer set that exists and forget it. */
  function Teardown(c: CameraState): (r: (CameraState, seq<Command>))
    ensures r.0.gbuffer.None? && r.0.result.None?
    ensures r.0.dirLights == c.dirLights && r.0.pointLights == c.pointLights
    ensures r.0.hasPointLightMesh == c.hasPointLightMesh
    ensures Destroy(GBuffer) in r.1 <==> c.gbuffer.Some?
    ensures Destroy(ResultBuffer) in r.1 <==> c.result.Some?
    ensures forall i :: 0 <= i < |r.1| ==> r.1[i].Destroy?
    ensures |r.1| == (if c.gbuffer.Some? then 1 else 0) + (if c.result.Some? then 1 else 0)
    ensures forall i, j ::
      0 <= i < |r.1| && 0 <= j < |r.1| && r.1[i] == Destroy(GBuffer) && r.1[j] == Destroy(ResultBuffer) ==> i < j
  {
    var g := if c.gbuffer.Some? then [Destroy(GBuffer)] else [];
    var res := if c.result.Some? then [Destroy(ResultBuffer)] else [];
    (c.(gbuffer := None, result := None), g + res)
  }

  /** The commands before the light loops and after them. */
  const PostRenderPrologue := [ActivateResult, ClearResult] + BindTextures

  function PostRenderEpilogue(d: DeviceType): seq<Command> {
    [ResetActive] + Composite(d)
  }

  lemma PrologueFilters()
    ensures Filter(PostRenderPrologue, IsDraw) == []
    ensures Filter(PostRenderPrologue, IsSetPass) == []
    ensures Filter(PostRenderPrologue, IsDirectionVector) == []
    ensures Filter(PostRenderPrologue, IsMeshDraw) == []
  {
    FilterNone(PostRenderPrologue, IsDraw);
    FilterNone(PostRenderPrologue, IsSetPass);
    FilterNone(PostRenderPrologue, IsDirectionVector);
    FilterNone(PostRenderPrologue, IsMeshDraw);
  }

  lemma EpilogueLiteral(d: DeviceType)
    ensures PostRenderEpilogue(d) == [ResetActive, ClearToBlack, SetPass(3), DrawQuad(FullScreenQuad)]
  {
  }

  lemma EpilogueDraws(d: DeviceType)
    ensures Filter(PostRenderEpilogue(d), IsDraw) == [DrawQuad(FullScreenQuad)]
    ensures Filter(PostRenderEpilogue(d), IsSetPass) == [SetPass(3)]
  {
    DrawScreenQuadCommands(d, 3, true, true);
    FilterConcat([ResetActive], Composite(d), IsDraw);
    FilterConcat([ResetActive], Composite(d), IsSetPass);
    FilterSingleton(ResetActive, IsDraw);
    FilterSingleton(ResetActive, IsSetPass);
  }

  lemma EpilogueNoLightCommands(d: DeviceType)
    ensures Filter(PostRenderEpilogue(d), IsDirectionVector) == []
    ensures Filter(PostRenderEpilogue(d), IsMeshDraw) == []
  {
    EpilogueLiteral(d);
    FilterNone(PostRenderEpilogue(d), IsDirectionVector);
    FilterNone(PostRenderEpilogue(d), IsMeshDraw);
  }

  /** `OnPostRender` draws once per non-null directional light, once per
      non-null point light and once for the composite; null arrays and null
      entries contribute nothing. */
  lemma PostRenderDrawCount(c: CameraState, d: DeviceType)
    requires RangesNonZero(Entries(c.pointLights))
    requires c.gbuffer.Some? && c.result.Some? && MeshAvailable(c)
    ensures PostRender(c, d).outcome == Completed
    ensures |Filter(PostRender(c, d).commands, IsDraw)|
         == |Present(Entries(c.dirLights))| + |Present(Entries(c.pointLights))| + 1
  {
    DirectionalPassesDrawCount(Entries(c.dirLights), d);
    PointPassesDrawCount(Entries(c.pointLights));
    PostRenderCompletedRun(c, d);
    PrologueFilters();
    EpilogueDraws(d);
    EpilogueNoLightCommands(d);
    FilterConcat4(PostRenderPrologue, DirectionalPasses(Entries(c.dirLights), d),
                  PointPasses(Entries(c.pointLights)), PostRenderEpilogue(d), IsDraw);
  }

  /** The shader passes of a frame, in order: one directional pass (0 on
      OpenGL-like backends, 1 otherwise) per directional light, then pass 2
      per point light, then pass 3 for the composite on every backend. */
  lemma PostRenderPasses(c: CameraState, d: DeviceType)
    requires RangesNonZero(Entries(c.pointLights))
    requires c.gbuffer.Some? && c.result.Some? && MeshAvailable(c)
    ensures Filter(PostRender(c, d).commands, IsSetPass)
         == Repeat(SetPass(DirectionalPassIndex(d)), |Present(Entries(c.dirLights))|)
          + Repeat(SetPass(2), |Present(Entries(c.pointLights))|)
          + [SetPass(3)]
  {
    DirectionalPassesPasses(Entries(c.dirLights), d);
    PointPassesPasses(Entries(c.pointLights));
    var dirs := DirectionalPasses(Entries(c.dirLights), d);
    var points := PointPasses(Entries(c.pointLights));
    PostRenderCompletedRun(c, d);
    PrologueFilters();
    EpilogueDraws(d);
    EpilogueNoLightCommands(d);
    FilterConcat4(PostRenderPrologue, dirs, points, PostRenderEpilogue(d), IsSetPass);
    assert [] + Filter(dirs, IsSetPass) == Filter(dirs, IsSetPass);
  }

  /** Directional parameters appear in the trace in the order of the
      non-null directional lights. */
  lemma PostRenderDirectionOrder(c: CameraState, d: DeviceType)
    requires RangesNonZero(Entries(c.pointLights))
    requires c.gbuffer.Some? && c.result.Some? && MeshAvailable(c)
    ensures Filter(PostRender(c, d).commands, IsDirectionVector)
         == Map(DirectionVectorOf, Present(Entries(c.dirLights)))
  {
    DirectionalPassesOrder(Entries(c.dirLights), d);
    PointPassesNoDirections(Entries(c.pointLights));
    PostRenderCompletedRun(c, d);
    PrologueFilters();
    EpilogueNoLightCommands(d);
    FilterConcat4(PostRenderPrologue, DirectionalPasses(Entries(c.dirLights), d),
                  PointPasses(Entries(c.pointLights)), PostRenderEpilogue(d), IsDirectionVector);
  }

  /** Point-light mesh draws appear in the trace in the order of the
      non-null point lights. */
  lemma PostRenderMeshOrder(c: CameraState, d: DeviceType)
    requires RangesNonZero(Entries(c.pointLights))
    requires c.gbuffer.Some? && c.result.Some? && MeshAvailable(c)
    ensures Filter(PostRender(c, d).commands, IsMeshDraw)
         == Map(MeshDrawOf, Present(Entries(c.pointLights)))
  {
    DirectionalPassesOnlyQuads(Entries(c.dirLights), d);
    PointPassesOrder(Entries(c.pointLights));
    PostRenderCompletedRun(c, d);
    PrologueFilters();
    EpilogueNoLightCommands(d);
    FilterConcat4(PostRenderPrologue, DirectionalPasses(Entries(c.dirLights), d),
                  PointPasses(Entries(c.pointLights)), PostRenderEpilogue(d), IsMeshDraw);
  }

  /** The layout of a completed post-render trace: result slot 0 activated
      and cleared first; then the composite clear, pass 3 and the quad last;
      and the render target changes only at the activation and at the
      reset just before the composite. */
  predicate FrameLayout(t: seq<Command>) {
    && |t| >= 10
    && t[..2] == [ActivateResult, ClearResult]
    && t[|t| - 4..] == [ResetActive, ClearToBlack, SetPass(3), DrawQuad(FullScreenQuad)]
    && (forall i :: 0 <= i < |t| && ChangesTarget(t[i]) ==> i == 0 || i == |t| - 4)
  }

  lemma LayoutAroundReset(t: seq<Command>, loops: seq<Command>)
    requires Filter(loops, ChangesTarget) == []
    requires t == PostRenderPrologue + loops
                  + [ResetActive, ClearToBlack, SetPass(3), DrawQuad(FullScreenQuad)]
    ensures FrameLayout(t)
  {
    FilterEmptyNone(loops, ChangesTarget);
    assert t[..2] == PostRenderPrologue[..2];
    assert t[|t| - 4..] == [ResetActive, ClearToBlack, SetPass(3), DrawQuad(FullScreenQuad)];
  }

  /** The commands of both light loops of a frame. */
  function LightLoops(c: CameraState, d: DeviceType): seq<Command>
    requires RangesNonZero(Entries(c.pointLights))
  {
    DirectionalPasses(Entries(c.dirLights), d) + PointPasses(Entries(c.pointLights))
  }

  lemma LightLoopsKeepTarget(c: CameraState, d: DeviceType)
    requires RangesNonZero(Entries(c.pointLights))
    ensures Filter(LightLoops(c, d), ChangesTarget) == []
  {
    DirectionalPassesOnlyQuads(Entries(c.dirLights), d);
    PointPassesNoDirections(Entries(c.pointLights));
    FilterConcat(DirectionalPasses(Entries(c.dirLights), d), PointPasses(Entries(c.pointLights)), ChangesTarget);
  }

  lemma PostRenderAroundLoops(c: CameraState, d: DeviceType)
    requires RangesNonZero(Entries(c.pointLights))
    requires c.result.Some? && c.gbuffer.Some? && MeshAvailable(c)
    ensures PostRender(c, d).commands
         == PostRenderPrologue + LightLoops(c, d)
          + [ResetActive, ClearToBlack, SetPass(3), DrawQuad(FullScreenQuad)]
  {
    PostRenderCompletedRun(c, d);
    EpilogueLiteral(d);
  }

  /** The frame around the light loops: result slot 0 is activated and
      cleared to black with depth 0 first; the composite clear, pass 3 and
      quad close the trace; in between, the only change of render target is
      the reset just before the composite. */
  lemma PostRenderShape(c: CameraState, d: DeviceType)
    requires RangesNonZero(Entries(c.pointLights))
    requires c.result.Some? && c.gbuffer.Some? && MeshAvailable(c)
    ensures FrameLayout(PostRender(c, d).commands)
  {
    LightLoopsKeepTarget(c, d);
    PostRenderAroundLoops(c, d);
    LayoutAroundReset(PostRender(c, d).commands, LightLoops(c, d));
  }

  /** A missing result buffer fails before any command; a missing G-buffer
      fails right after the activation and the clear. A frame completes
      exactly when both buffers exist and the point loop can draw. */
  lemma PostRenderNullBuffers(c: CameraState, d: DeviceType)
    requires RangesNonZero(Entries(c.pointLights))
    ensures PostRender(c, d).outcome == Completed <==> c.result.Some? && c.gbuffer.Some? && MeshAvailable(c)
    ensures PostRender(c, d).outcome == NullReference <==> c.result.None? || c.gbuffer.None?
    ensures c.result.None? ==> PostRender(c, d).commands == []
    ensures c.result.Some? && c.gbuffer.None? ==>
      PostRender(c, d).commands == [ActivateResult, ClearResult]
  {
  }

  /** `OnPreRender` completes exactly when both buffer sets exist; then it
      resizes the G-buffer and then the result buffer, each once, to the
      screen, and every resize comes before the single bind of the G-buffer
      with depth taken from the result buffer at index 0. It never binds
      after a failure: a missing G-buffer fails before any command, a
      missing result buffer right after the G-buffer resize. */
  lemma PreRenderResizesBeforeBind(c: CameraState, screen: Screen)
    ensures PreRender(c, screen).outcome == Completed <==> c.gbuffer.Some? && c.result.Some?
    ensures c.gbuffer.None? ==> PreRender(c, screen).commands == []
    ensures c.gbuffer.Some? && c.result.None? ==>
      PreRender(c, screen).commands == [ResetSize(GBuffer, screen.width, screen.height)]
    ensures PreRender(c, screen).outcome == NullReference ==>
      forall i :: 0 <= i < |PreRender(c, screen).commands| ==>
        PreRender(c, screen).commands[i].ResetSize?
    ensures PreRender(c, screen).outcome == Completed ==>
      var t := PreRender(c, screen).commands;
      && (set i | 0 <= i < |t| && t[i].ResetSize? :: t[i].buffer) == {GBuffer, ResultBuffer}
      && (forall i :: 0 <= i < |t| && t[i].ResetSize? ==>
            t[i].width == screen.width && t[i].height == screen.height)
      && (forall i, j :: 0 <= i < |t| && 0 <= j < |t| && t[i].ResetSize? && t[j].SetMultipleRenderTargets? ==> i < j)
      && t[|t| - 1] == SetMultipleRenderTargets(GBuffer, ResultBuffer, 0)
      && (forall i :: 0 <= i < |t| - 1 ==> t[i].ResetSize?)
      && |t| == 3
      && t[0] == ResetSize(GBuffer, screen.width, screen.height)
      && t[1] == ResetSize(ResultBuffer, screen.width, screen.height)
  {
    if c.gbuffer.Some? && c.result.Some? {
      var t := PreRender(c, screen).commands;
      assert t[0].buffer == GBuffer && t[1].buffer == ResultBuffer;
      assert GBuffer in (set i | 0 <= i < |t| && t[i].ResetSize? :: t[i].buffer);
      assert ResultBuffer in (set i | 0 <= i < |t| && t[i].ResetSize? :: t[i].buffer);
    }
  }

  /** A second teardown destroys nothing and changes nothing. */
  lemma TeardownIdempotent(c: CameraState)
    ensures Teardown(Teardown(c).0).1 == []
    ensures Teardown(Teardown(c).0).0 == Teardown(c).0
  {
  }

  /** After a successful `Awake` the pre-render completes, and the
      post-render completes exactly when a mesh is assigned or there is no
      non-null point light; otherwise the mesh draw is rejected. Teardown
      destroys the G-buffer and then the result buffer; after teardown a
      frame fails before issuing any command. */
  lemma AwakeEnablesFrame(halfFloatSupported: bool, screen: Screen, hasMesh: bool,
                          dirs: LightArray, points: LightArray, frame: Screen, d: DeviceType)
    requires halfFloatSupported
    requires RangesNonZero(Entries(points))
    ensures Awake(halfFloatSupported, screen, hasMesh, dirs, points).Some?
    ensures var c := Awake(halfFloatSupported, screen, hasMesh, dirs, points).value;
      && PreRender(c, frame).outcome == Completed
      && (PostRender(c, d).outcome == Completed <==> hasMesh || Present(Entries(points)) == [])
      && (PostRender(c, d).outcome != Completed ==> PostRender(c, d).outcome == MeshRejected)
      && Teardown(c).1 == [Destroy(GBuffer), Destroy(ResultBuffer)]
      && PreRender(Teardown(c).0, frame) == Run([], NullReference)
  {
  }

  /** Dropping a prefix without mesh draws commutes with the cut. */
  lemma {:induction false} BeforeFirstMeshSkips(a: seq<Command>, b: seq<Command>)
    requires forall i :: 0 <= i < |a| ==> !a[i].DrawMesh?
    ensures BeforeFirstMesh(a + b) == a + BeforeFirstMesh(b)
    decreases |a|
  {
    if |a| == 0 {
      assert a + b == b;
    } else {
      assert (a + b)[0] == a[0] && !a[0].DrawMesh?;
      assert (a + b)[1..] == a[1..] + b;
      assert BeforeFirstMesh(a + b) == [a[0]] + BeforeFirstMesh(a[1..] + b);
      BeforeFirstMeshSkips(a[1..], b);
      assert [a[0]] + (a[1..] + BeforeFirstMesh(b)) == a + BeforeFirstMesh(b);
    }
  }

  /** Once `a` contains a mesh draw, what follows it does not matter. */
  lemma {:induction false} BeforeFirstMeshStops(a: seq<Command>, b: seq<Command>)
    requires |BeforeFirstMesh(a)| < |a|
    ensures BeforeFirstMesh(a + b) == BeforeFirstMesh(a)
    decreases |a|
  {
    if !a[0].DrawMesh? {
      assert (a + b)[1..] == a[1..] + b;
      BeforeFirstMeshStops(a[1..], b);
    }
  }

  /** The cut stops early exactly when `t` draws a mesh, and then it stops at
      the first mesh draw the filter lists. */
  lemma BeforeFirstMeshFilter(t: seq<Command>)
    ensures |BeforeFirstMesh(t)| < |t| <==> Filter(t, IsMeshDraw) != []
    ensures |BeforeFirstMesh(t)| < |t| ==> Filter(t, IsMeshDraw)[0] == t[|BeforeFirstMesh(t)|]
  {
    var r := BeforeFirstMesh(t);
    FilterNone(r, IsMeshDraw);
    if |r| < |t| {
      var k := |r|;
      assert t == r + ([t[k]] + t[k + 1..]);
      FilterConcat(r, [t[k]] + t[k + 1..], IsMeshDraw);
      FilterConcat([t[k]], t[k + 1..], IsMeshDraw);
      FilterSingleton(t[k], IsMeshDraw);
    } else {
      assert r == t;
    }
  }

  /** A point light without a mesh issues its three parameters and its pass. */
  lemma PointPassBeforeMesh(l: Light)
    requires l.range != 0.0
    ensures |BeforeFirstMesh(PointPass(l))| < |PointPass(l)|
    ensures BeforeFirstMesh(PointPass(l)) == PointPass(l)[..4]
  {
    var t := PointPass(l);
    assert BeforeFirstMesh(t[4..]) == [];
    assert t[3..][1..] == t[4..];
    assert BeforeFirstMesh(t[3..]) == t[3..4];
    assert t[2..][1..] == t[3..];
    assert BeforeFirstMesh(t[2..]) == t[2..4];
    assert t[1..][1..] == t[2..];
    assert BeforeFirstMesh(t[1..]) == t[1..4];
  }

  /** Without a mesh, a frame with a non-null point light issues a prefix of
      the frame it would draw with one, and stops exactly at the mesh draw
      of the first non-null point light. */
  lemma PostRenderMissingMeshStops(c: CameraState, d: DeviceType)
    requires RangesNonZero(Entries(c.pointLights))
    requires c.gbuffer.Some? && c.result.Some?
    requires !c.hasPointLightMesh && Present(Entries(c.pointLights)) != []
    ensures PostRender(c, d).outcome == MeshRejected
    ensures var t := PostRender(c, d).commands;
            var full := PostRender(c.(hasPointLightMesh := true), d).commands;
      && |t| < |full| && t == full[..|t|]
      && full[|t|] == MeshDrawOf(Present(Entries(c.pointLights))[0])
  {
    var c' := c.(hasPointLightMesh := true);
    var full := FullFrame(c, d);
    assert PostRender(c', d).commands == full;
    assert PostRender(c, d).commands == BeforeFirstMesh(full);
    PostRenderMeshOrder(c', d);
    BeforeFirstMeshFilter(full);
    MapHead(MeshDrawOf, Present(Entries(c.pointLights)));
  }

  /** Such a frame draws no mesh and never reaches the reset or the
      composite: the result buffer it activated stays the target. */
  lemma PostRenderMissingMeshNoComposite(c: CameraState, d: DeviceType)
    requires RangesNonZero(Entries(c.pointLights))
    requires c.gbuffer.Some? && c.result.Some?
    requires !c.hasPointLightMesh && Present(Entries(c.pointLights)) != []
    ensures forall i :: 0 <= i < |PostRender(c, d).commands| ==> !PostRender(c, d).commands[i].DrawMesh?
    ensures ResetActive !in PostRender(c, d).commands
    ensures forall i :: 0 <= i < |PostRender(c, d).commands| && ChangesTarget(PostRender(c, d).commands[i]) ==> i == 0
  {
    var c' := c.(hasPointLightMesh := true);
    var full := PostRender(c', d).commands;
    var t := PostRender(c, d).commands;
    PostRenderMissingMeshStops(c, d);
    PostRenderShape(c', d);
    assert IsDraw(full[|t|]);
    assert full[|full| - 1] == DrawQuad(FullScreenQuad) by {
      assert full[|full| - 4..][3] == full[|full| - 1];
    }
    assert |t| < |full| - 4;
    assert full[0] == ActivateResult by {
      assert full[..2][0] == full[0];
    }
    forall j | 0 <= j < |t| && ChangesTarget(t[j])
      ensures j == 0
    {
      assert t[j] == full[j];
    }
    forall j | 0 <= j < |t|
      ensures t[j] != ResetActive
    {
      assert t[j] == full[j];
    }
  }

  /** The point loop up to a non-null entry `i` drew nothing: the loop stops
      at that entry's mesh draw, after its parameters and its pass. */
  lemma PointLoopRejects(ls: seq<Option<Light>>, i: int)
    requires RangesNonZero(ls)
    requires 0 <= i < |ls| && ls[i].Some?
    requires PointPasses(ls[..i]) == []
    ensures Present(ls) != []
    ensures |BeforeFirstMesh(PointPasses(ls))| < |PointPasses(ls)|
    ensures BeforeFirstMesh(PointPasses(ls)) == PointPass(ls[i].value)[..4]
  {
    var l := ls[i].value;
    var rest := ls[i + 1..];
    assert ls == ls[..i] + ([ls[i]] + rest);
    PointPassesConcat(ls[..i], [ls[i]] + rest);
    PointPassesConcat([ls[i]], rest);
    assert PointPasses([ls[i]]) == PointPass(l) by {
      assert [ls[i]][..0] == [];
    }
    assert PointPasses(ls) == PointPass(l) + PointPasses(rest);
    PointPassBeforeMesh(l);
    BeforeFirstMeshStops(PointPass(l), PointPasses(rest));
    PresentNonEmpty(ls, i);
  }

  /** Nothing before the point loop draws a mesh. */
  lemma BeforePointsMeshFree(c: CameraState, d: DeviceType)
    ensures Filter(PostRenderPrologue + DirectionalPasses(Entries(c.dirLights), d), IsMeshDraw) == []
  {
    var dirs := DirectionalPasses(Entries(c.dirLights), d);
    PrologueFilters();
    DirectionalPassesOnlyQuads(Entries(c.dirLights), d);
    FilterConcat(PostRenderPrologue, dirs, IsMeshDraw);
  }

  /** The full frame with its four parts grouped from the right. */
  lemma FullFrameNested(c: CameraState, d: DeviceType)
    requires RangesNonZero(Entries(c.pointLights))
    ensures FullFrame(c, d)
         == PostRenderPrologue + (DirectionalPasses(Entries(c.dirLights), d)
          + (PointPasses(Entries(c.pointLights)) + PostRenderEpilogue(d)))
  {
  }

  /** A rejected frame is the prologue, the directional loop and the cut
      point loop. */
  lemma MissingMeshTrace(c: CameraState, d: DeviceType)
    requires RangesNonZero(Entries(c.pointLights))
    requires |BeforeFirstMesh(PointPasses(Entries(c.pointLights)))| < |PointPasses(Entries(c.pointLights))|
    ensures BeforeFirstMesh(FullFrame(c, d))
         == PostRenderPrologue + DirectionalPasses(Entries(c.dirLights), d)
          + BeforeFirstMesh(PointPasses(Entries(c.pointLights)))
  {
    var a := PostRenderPrologue + DirectionalPasses(Entries(c.dirLights), d);
    var points := PointPasses(Entries(c.pointLights));
    assert FullFrame(c, d) == a + (points + PostRenderEpilogue(d)) by {
      FullFrameNested(c, d);
    }
    BeforePointsMeshFree(c, d);
    FilterEmptyNone(a, IsMeshDraw);
    BeforeFirstMeshSkips(a, points + PostRenderEpilogue(d));
    BeforeFirstMeshStops(points, PostRenderEpilogue(d));
  }

  lemma PostRenderCompletedRun(c: CameraState, d: DeviceType)
    requires RangesNonZero(Entries(c.pointLights))
    requires c.gbuffer.Some? && c.result.Some? && MeshAvailable(c)
    ensures PostRender(c, d) == Run(FullFrame(c, d), Completed)
  {
  }

  lemma PostRenderRejectedRun(c: CameraState, d: DeviceType)
    requires RangesNonZero(Entries(c.pointLights))
    requires c.gbuffer.Some? && c.result.Some? && !MeshAvailable(c)
    ensures PostRender(c, d) == Run(BeforeFirstMesh(FullFrame(c, d)), MeshRejected)
  {
  }

  /** The directional loop as the component runs it: a counted loop over
      the array with a null check per entry. */
  method DirectionalLoop(dirLights: seq<Option<Light>>, d: DeviceType) returns (cmds: seq<Command>)
    ensures cmds == DirectionalPasses(dirLights, d)
  {
    cmds := [];
    var i := 0;
    while i < |dirLights|
      invariant 0 <= i <= |dirLights|
      invariant cmds == DirectionalPasses(dirLights[..i], d)
    {
      var light := dirLights[i];
      assert dirLights[..i + 1][..i] == dirLights[..i];
      if light.Some? {
        cmds := cmds + DirectionalPass(light.value, d);
      }
      i := i + 1;
    }
    assert dirLights[..i] == dirLights;
  }

  /** The point loop as the component runs it. Without a mesh, the first
      non-null light gets its parameters and pass, and then its mesh draw
      is rejected. */
  method PointLoop(pointLights: seq<Option<Light>>, hasMesh: bool) returns (cmds: seq<Command>, rejected: bool)
    requires RangesNonZero(pointLights)
    ensures rejected <==> !hasMesh && Present(pointLights) != []
    ensures !rejected ==> cmds == PointPasses(pointLights)
    ensures rejected ==> cmds == BeforeFirstMesh(PointPasses(pointLights))
    ensures rejected ==> |cmds| < |PointPasses(pointLights)|
  {
    cmds := [];
    rejected := false;
    var i := 0;
    while i < |pointLights|
      invariant 0 <= i <= |pointLights|
      invariant RangesNonZero(pointLights[..i])
      invariant cmds == PointPasses(pointLights[..i])
      invariant !hasMesh ==> cmds == [] && Present(pointLights[..i]) == []
    {
      var light := pointLights[i];
      assert pointLights[..i + 1][..i] == pointLights[..i];
      if light.Some? {
        if !hasMesh {
          PointLoopRejects(pointLights, i);
          cmds := cmds + PointPass(light.value)[..4];
          return cmds, true;
        }
        cmds := cmds + PointPass(light.value);
      }
      i := i + 1;
    }
    assert pointLights[..i] == pointLights;
  }

  /** The end of a frame whose point loop drew every light: the reset and
      the composite. */
  method FinishFrame(c: CameraState, d: DeviceType, lit: seq<Command>) returns (run: Run)
    requires RangesNonZero(Entries(c.pointLights))
    requires c.gbuffer.Some? && c.result.Some? && MeshAvailable(c)
    requires lit == PostRenderPrologue + DirectionalPasses(Entries(c.dirLights), d)
                    + PointPasses(Entries(c.pointLights))
    ensures run == PostRender(c, d)
  {
    run := Run(lit + [ResetActive] + DrawScreenQuad(d, 3, true, true), Completed);
    PostRenderCompletedRun(c, d);
  }

  /** The end of a frame whose mesh draw was rejected: nothing more is
      issued. */
  method AbortFrame(c: CameraState, d: DeviceType, lit: seq<Command>) returns (run: Run)
    requires RangesNonZero(Entries(c.pointLights))
    requires c.gbuffer.Some? && c.result.Some? && !MeshAvailable(c)
    requires |BeforeFirstMesh(PointPasses(Entries(c.pointLights)))| < |PointPasses(Entries(c.pointLights))|
    requires lit == PostRenderPrologue + DirectionalPasses(Entries(c.dirLights), d)
                    + BeforeFirstMesh(PointPasses(Entries(c.pointLights)))
    ensures run == PostRender(c, d)
  {
    run := Run(lit, MeshRejected);
    MissingMeshTrace(c, d);
    PostRenderRejectedRun(c, d);
  }

  /** `OnPostRender` as the component runs it: activation and clear, the
      texture bindings, the two loops, then the reset and the composite. It
      issues exactly the trace `PostRender` describes, with its outcome. */
  method OnPostRender(c: CameraState, d: DeviceType) returns (run: Run)
    requires RangesNonZero(Entries(c.pointLights))
    ensures run == PostRender(c, d)
  {
    if c.result.None? {
      return Run([], NullReference);
    }
    var cmds := [ActivateResult, ClearResult];
    if c.gbuffer.None? {
      return Run(cmds, NullReference);
    }
    cmds := cmds + BindTextures;
    var dirCmds := DirectionalLoop(Entries(c.dirLights), d);
    var pointCmds, rejected := PointLoop(Entries(c.pointLights), c.hasPointLightMesh);
    if rejected {
      run := AbortFrame(c, d, cmds + dirCmds + pointCmds);
    } else {
      run := FinishFrame(c, d, cmds + dirCmds + pointCmds);
    }
  }
}

=== FILE: commands.dfy ===
/** The abstract command trace: one constructor per engine call the camera
    makes while rendering a frame. */
module Commands {
  import opened Geometry

  /** The two buffer sets the camera owns: the three-target G-buffer and
      the single-target result buffer. */
  datatype Buffer = GBuffer | ResultBuffer

  /** The shader properties the composite material is given. */
  datatype Property =
    | DiffuseBuffer | NormalBuffer | PositionBuffer | ResultBufferTexture
    | DirLightDir | DirLightColor
    | PointLightPos | PointLightColor | PointLightRange

  /** One texture-coordinate / vertex pair of the immediate-mode quad. */
  datatype QuadVertex = QuadVertex(uv: Vec2, position: Vec3)

  datatype Command =
      /** `ResetSize` on a buffer set. */
    | ResetSize(buffer: Buffer, width: int, height: int)
      /** `SetMultipleRenderTargets(cam, colors, depthSource, depthIndex)`, with
          the arguments in call order; their roles are taken from the
          buffer sets' field comments, as the method is not visible here. */
    | SetMultipleRenderTargets(colorTargets: Buffer, depthSource: Buffer, depthIndex: int)
      /** `SetActiveRenderTexture(slot)` on a buffer set. */
    | SetActive(buffer: Buffer, slot: int)
      /** `ClearActiveRenderTexture` with its two boolean flags in call order,
          then colour and depth. Which flag selects depth and which colour
          is not visible here; the only call passes `true` for both. */
    | ClearActive(firstFlag: bool, secondFlag: bool, color: Color, depth: real)
      /** `Material.SetTexture` with a render texture of a buffer set. */
    | SetTexture(property: Property, source: Buffer, slot: int)
    | SetVector(property: Property, vector: Vec4)
    | SetColor(property: Property, color: Color)
    | SetPass(pass: int)
      /** `GL.Clear(clearDepth, clearColor, color)` of the current target;
          `depth` is the engine's default. */
    | ClearScreen(clearDepth: bool, clearColor: bool, color: Color, depth: real)
      /** The pushed-matrix `GL.QUADS` block with its vertex list. */
    | DrawQuad(quad: Quad)
      /** `Graphics.DrawMeshNow` of the point-light mesh with a translation /
          identity rotation / scale matrix. */
    | DrawMesh(translation: Vec3, scale: Vec3)
    | ResetActive
      /** `Destroy` on a buffer set. */
    | Destroy(buffer: Buffer)

  /** An immediate-mode quad: four vertices in emission order. */
  datatype Quad = Quad(v0: QuadVertex, v1: QuadVertex, v2: QuadVertex, v3: QuadVertex)

  function Vertices(q: Quad): seq<QuadVertex> {
    [q.v0, q.v1, q.v2, q.v3]
  }

  /** The quad `DrawScreenQuad` emits. */
  const FullScreenQuad := Quad(
    QuadVertex(Vec2(0.0, 0.0), Vec3(-1.0, -1.0, 0.0)),
    QuadVertex(Vec2(0.0, 1.0), Vec3(-1.0, 1.0, 0.0)),
    QuadVertex(Vec2(1.0, 1.0), Vec3(1.0, 1.0, 0.0)),
    QuadVertex(Vec2(1.0, 0.0), Vec3(1.0, -1.0, 0.0)))

  /** The vertex list of the screen quad. */
  const QuadVertices := Vertices(FullScreenQuad)

  predicate IsDraw(c: Command) {
    c.DrawQuad? || c.DrawMesh?
  }

  predicate IsSetPass(c: Command) {
    c.SetPass?
  }

  predicate IsMeshDraw(c: Command) {
    c.DrawMesh?
  }

  /** The commands that change the render target: activating a buffer
      set, binding the multiple render targets, returning to the screen. */
  predicate ChangesTarget(c: Command) {
    c.SetActive? || c.SetMultipleRenderTargets? || c.ResetActive?
  }

  /** The parameters of a directional light: its direction and colour. */
  predicate IsDirectionalParameter(c: Command) {
    || (c.SetVector? && c.property == DirLightDir)
    || (c.SetColor? && c.property == DirLightColor)
  }

  /** The parameters of a point light: position, range and colour. */
  predicate IsPointParameter(c: Command) {
    || (c.SetVector? && (c.property == PointLightPos || c.property == PointLightRange))
    || (c.SetColor? && c.property == PointLightColor)
  }

  predicate IsLightParameter(c: Command) {
    IsDirectionalParameter(c) || IsPointParameter(c)
  }

  /** The per-light direction parameter of a directional light. */
  predicate IsDirectionVector(c: Command) {
    c.SetVector? && c.property == DirLightDir
  }

  /** The quad covers clip space: its four vertices are the four corners of
      [-1,1] x [-1,1] in the plane z = 0, each with the texture coordinate
      that maps it linearly onto [0,1] x [0,1]. */
  lemma QuadVerticesSpanClipSpace()
    ensures |QuadVertices| == 4
    ensures forall v :: v in QuadVertices ==>
      && v.position.z == 0.0
      && (v.position.x == -1.0 || v.position.x == 1.0)
      && (v.position.y == -1.0 || v.position.y == 1.0)
      && v.uv == Vec2((v.position.x + 1.0) / 2.0, (v.position.y + 1.0) / 2.0)
    ensures forall i, j :: 0 <= i < j < |QuadVertices| ==> QuadVertices[i] != QuadVertices[j]
  {
  }
}

=== FILE: geometry.dfy ===
/** Vectors and colours over `real`: the model's stand-in for Unity's
    single-precision Vector2/Vector3/Vector4 and Color values. */
module Geometry {

  datatype Vec2 = Vec2(x: real, y: real)
  datatype Vec3 = Vec3(x: real, y: real, z: real)
  datatype Vec4 = Vec4(x: real, y: real, z: real, w: real)
  datatype Color = Color(r: real, g: real, b: real, a: real)

  /** Opaque black, the value of Unity's `Color.black`. */
  const Black := Color(0.0, 0.0, 0.0, 1.0)

  const Zero3 := Vec3(0.0, 0.0, 0.0)

  function Negate(v: Vec3): Vec3 {
    Vec3(-v.x, -v.y, -v.z)
  }

  function Add(a: Vec3, b: Vec3): Vec3 {
    Vec3(a.x + b.x, a.y + b.y, a.z + b.z)
  }

  /** The vector with all three components equal to `k` (`Vector3.one * k`). */
  function Uniform(k: real): Vec3 {
    Vec3(k, k, k)
  }

  /** The first three components of a 4-vector. */
  function Xyz(v: Vec4): Vec3 {
    Vec3(v.x, v.y, v.z)
  }

  /** Unity's implicit Vector3-to-Vector4 conversion, which sets `w` to 0. */
  function Extend(v: Vec3): Vec4 {
    Vec4(v.x, v.y, v.z, 0.0)
  }
}

=== FILE: lights.dfy ===
/** The per-light accumulation draws of `OnPostRender`: parameter packing
    and the commands each directional or point light contributes. */
module Lights {
  import opened Seqs
  import opened Geometry
  import opened Backend
  import opened Commands
  import opened ScreenQuad

  /** The part of a Unity `Light` the camera reads. */
  datatype Light = Light(forward: Vec3, position: Vec3, color: Color, intensity: real, range: real)

  /** A light array as returned by the engine: the array itself may be
      null, and so may each entry. */
  type LightArray = Option<seq<Option<Light>>>

  /** The entries the loop visits: a null array has none. */
  function Entries(a: LightArray): (r: seq<Option<Light>>)
    ensures a.None? ==> r == []
    ensures a.Some? ==> r == a.value
  {
    match a
    case None => []
    case Some(ls) => ls
  }

  /** The non-null entries, in array order. */
  function Present(ls: seq<Option<Light>>): (r: seq<Light>)
    ensures |r| <= |ls|
    ensures (forall i :: 0 <= i < |ls| ==> ls[i].Some?) ==> |r| == |ls|
    ensures (forall i :: 0 <= i < |ls| ==> ls[i].None?) ==> r == []
    ensures forall l :: l in r <==> Some(l) in ls
    ensures (forall i :: 0 <= i < |ls| ==> ls[i].Some?) ==> forall i :: 0 <= i < |ls| ==> r[i] == ls[i].value
  {
    if |ls| == 0 then []
    else
      assert ls == ls[..|ls| - 1] + [ls[|ls| - 1]];
      Present(ls[..|ls| - 1]) + (match ls[|ls| - 1] case None => [] case Some(l) => [l])
  }

  /** Every non-null entry has a non-zero range. */
  predicate RangesNonZero(ls: seq<Option<Light>>) {
    forall i :: 0 <= i < |ls| && ls[i].Some? ==> ls[i].value.range != 0.0
  }

  /** `_DirLightDir`: the direction towards the light (the negated forward
      vector) with the intensity in the fourth component. */
  function DirectionParam(l: Light): (v: Vec4)
    ensures Add(Xyz(v), l.forward) == Zero3
    ensures v.w == l.intensity
  {
    var dir := Negate(l.forward);
    Vec4(dir.x, dir.y, dir.z, l.intensity)
  }

  /** `_PointLightRange`: the reciprocal of the range, then the intensity. */
  function RangeParam(l: Light): (v: Vec4)
    requires l.range != 0.0
    ensures v.x * l.range == 1.0
    ensures v.y == l.intensity
    ensures v.z == 0.0 && v.w == 0.0
  {
    Vec4(1.0 / l.range, l.intensity, 0.0, 0.0)
  }

  function DirectionVectorOf(l: Light): Command {
    SetVector(DirLightDir, DirectionParam(l))
  }

  /** The light-volume draw: the mesh moved to the light and scaled
      uniformly to the light's diameter. */
  function MeshDrawOf(l: Light): (c: Command)
    ensures c.DrawMesh? && c.translation == l.position
    ensures c.scale.x == c.scale.y == c.scale.z && c.scale.x / 2.0 == l.range
  {
    DrawMesh(l.position, Uniform(l.range * 2.0))
  }

  /** The commands one non-null directional light contributes: its two
      parameters, then one `DrawScreenQuad` with base pass 0, off screen and
      without a clear. */
  function DirectionalPass(l: Light, d: DeviceType): seq<Command> {
    [DirectionVectorOf(l), SetColor(DirLightColor, l.color)] + DrawScreenQuad(d, 0, false, false)
  }

  /** The commands one non-null point light contributes: position, colour
      and packed range, then `SetPass(2)` and the mesh draw. */
  function PointPass(l: Light): seq<Command>
    requires l.range != 0.0
  {
    [SetVector(PointLightPos, Extend(l.position)),
     SetColor(PointLightColor, l.color),
     SetVector(PointLightRange, RangeParam(l))]
    + [SetPass(2), MeshDrawOf(l)]
  }

  /** A directional light yields exactly one draw, of the fixed quad, with
      pass 0 on OpenGL-like backends and pass 1 otherwise, after its
      direction and colour parameters have been set. */
  lemma DirectionalPassDraws(l: Light, d: DeviceType)
    ensures Filter(DirectionalPass(l, d), IsDraw) == [DrawQuad(FullScreenQuad)]
    ensures Filter(DirectionalPass(l, d), IsSetPass) == [SetPass(DirectionalPassIndex(d))]
    ensures Filter(DirectionalPass(l, d), IsMeshDraw) == []
  {
    var params := [DirectionVectorOf(l), SetColor(DirLightColor, l.color)];
    var quad := DrawScreenQuad(d, 0, false, false);
    DrawScreenQuadCommands(d, 0, false, false);
    DrawScreenQuadNoLightCommands(d, 0, false, false);
    FilterConcat(params, quad, IsDraw);
    FilterConcat(params, quad, IsSetPass);
    FilterConcat(params, quad, IsMeshDraw);
    FilterNone(params, IsDraw);
    FilterNone(params, IsSetPass);
    FilterNone(params, IsMeshDraw);
  }

  /** The direction parameter is set exactly once per directional light. */
  lemma DirectionalPassParams(l: Light, d: DeviceType)
    ensures Filter(DirectionalPass(l, d), IsDirectionVector) == [DirectionVectorOf(l)]
  {
    var params := [DirectionVectorOf(l), SetColor(DirLightColor, l.color)];
    var quad := DrawScreenQuad(d, 0, false, false);
    assert Filter(params, IsDirectionVector) == [DirectionVectorOf(l)] by {
      assert params[..1] == [params[0]];
      FilterSingleton(params[0], IsDirectionVector);
    }
    DrawScreenQuadNoLightCommands(d, 0, false, false);
    FilterConcat(params, quad, IsDirectionVector);
  }

  /** A directional light sets its direction and colour before its quad
      draw, which is its last command, and never changes the render target. */
  lemma DirectionalPassLayout(l: Light, d: DeviceType)
    ensures DirectionalPass(l, d)[..2] == [DirectionVectorOf(l), SetColor(DirLightColor, l.color)]
    ensures DirectionalPass(l, d)[|DirectionalPass(l, d)| - 1] == DrawQuad(FullScreenQuad)
    ensures Filter(DirectionalPass(l, d), ChangesTarget) == []
  {
    var params := [DirectionVectorOf(l), SetColor(DirLightColor, l.color)];
    DrawScreenQuadNoLightCommands(d, 0, false, false);
    FilterConcat(params, DrawScreenQuad(d, 0, false, false), ChangesTarget);
    FilterNone(params, ChangesTarget);
  }

  /** A point light yields exactly one `SetPass(2)` and exactly one draw,
      the mesh draw placed and scaled for that light. */
  lemma PointPassDraws(l: Light)
    requires l.range != 0.0
    ensures Filter(PointPass(l), IsDraw) == [MeshDrawOf(l)]
    ensures Filter(PointPass(l), IsMeshDraw) == [MeshDrawOf(l)]
    ensures Filter(PointPass(l), IsSetPass) == [SetPass(2)]
  {
    var params := [SetVector(PointLightPos, Extend(l.position)),
                   SetColor(PointLightColor, l.color),
                   SetVector(PointLightRange, RangeParam(l))];
    var draw := [SetPass(2), MeshDrawOf(l)];
    FilterConcat(params, draw, IsDraw);
    FilterConcat(params, draw, IsMeshDraw);
    FilterConcat(params, draw, IsSetPass);
    FilterNone(params, IsDraw);
    FilterNone(params, IsMeshDraw);
    FilterNone(params, IsSetPass);
    assert draw[..1] == [SetPass(2)];
    FilterSingleton(SetPass(2), IsDraw);
    FilterSingleton(SetPass(2), IsMeshDraw);
    FilterSingleton(SetPass(2), IsSetPass);
  }

  /** A point light sets no directional parameter: neither the direction
      nor the directional colour. */
  lemma PointPassParams(l: Light)
    requires l.range != 0.0
    ensures Filter(PointPass(l), IsDirectionVector) == []
    ensures Filter(PointPass(l), IsDirectionalParameter) == []
  {
    FilterNone(PointPass(l), IsDirectionVector);
    FilterNone(PointPass(l), IsDirectionalParameter);
  }

  /** A point light sets its three parameters before the pass and the mesh
      draw, which is its last command, and never changes the render target. */
  lemma PointPassLayout(l: Light)
    requires l.range != 0.0
    ensures PointPass(l)[..3] == [SetVector(PointLightPos, Extend(l.position)),
                                  SetColor(PointLightColor, l.color),
                                  SetVector(PointLightRange, RangeParam(l))]
    ensures PointPass(l)[|PointPass(l)| - 1] == MeshDrawOf(l)
    ensures Filter(PointPass(l), ChangesTarget) == []
  {
    FilterNone(PointPass(l), ChangesTarget);
  }

  /** The directional loop of `OnPostRender`: the entries in array order,
      null entries skipped, each non-null light contributing its pass. */
  function DirectionalPasses(ls: seq<Option<Light>>, d: DeviceType): seq<Command> {
    if |ls| == 0 then []
    else
      DirectionalPasses(ls[..|ls| - 1], d)
      + (match ls[|ls| - 1] case None => [] case Some(l) => DirectionalPass(l, d))
  }

  /** The point loop of `OnPostRender`, with the same skipping of nulls. */
  function PointPasses(ls: seq<Option<Light>>): seq<Command>
    requires RangesNonZero(ls)
  {
    if |ls| == 0 then []
    else
      PointPasses(ls[..|ls| - 1])
      + (match ls[|ls| - 1] case None => [] case Some(l) => PointPass(l))
  }

  lemma DirectionalPassesSnoc(ls: seq<Option<Light>>, d: DeviceType)
    requires |ls| > 0
    ensures ls[|ls| - 1].None? ==> DirectionalPasses(ls, d) == DirectionalPasses(ls[..|ls| - 1], d)
    ensures ls[|ls| - 1].Some? ==>
      DirectionalPasses(ls, d) == DirectionalPasses(ls[..|ls| - 1], d) + DirectionalPass(ls[|ls| - 1].value, d)
    ensures ls[|ls| - 1].None? ==> Present(ls) == Present(ls[..|ls| - 1])
    ensures ls[|ls| - 1].Some? ==> Present(ls) == Present(ls[..|ls| - 1]) + [ls[|ls| - 1].value]
  {
    assert DirectionalPasses(ls[..|ls| - 1], d) + [] == DirectionalPasses(ls[..|ls| - 1], d);
    assert Present(ls[..|ls| - 1]) + [] == Present(ls[..|ls| - 1]);
  }

  lemma PointPassesSnoc(ls: seq<Option<Light>>)
    requires |ls| > 0 && RangesNonZero(ls)
    ensures RangesNonZero(ls[..|ls| - 1])
    ensures ls[|ls| - 1].None? ==> PointPasses(ls) == PointPasses(ls[..|ls| - 1])
    ensures ls[|ls| - 1].Some? ==>
      PointPasses(ls) == PointPasses(ls[..|ls| - 1]) + PointPass(ls[|ls| - 1].value)
    ensures ls[|ls| - 1].None? ==> Present(ls) == Present(ls[..|ls| - 1])
    ensures ls[|ls| - 1].Some? ==> Present(ls) == Present(ls[..|ls| - 1]) + [ls[|ls| - 1].value]
  {
    assert PointPasses(ls[..|ls| - 1]) + [] == PointPasses(ls[..|ls| - 1]);
    assert Present(ls[..|ls| - 1]) + [] == Present(ls[..|ls| - 1]);
  }

  /** An array with a non-null entry has a non-null light. */
  lemma {:induction false} PresentNonEmpty(ls: seq<Option<Light>>, i: int)
    requires 0 <= i < |ls| && ls[i].Some?
    ensures Present(ls) != []
    decreases |ls|
  {
    if i < |ls| - 1 {
      PresentNonEmpty(ls[..|ls| - 1], i);
    }
  }

  lemma RangesSplit(a: seq<Option<Light>>, b: seq<Option<Light>>)
    requires RangesNonZero(a + b)
    ensures RangesNonZero(a) && RangesNonZero(b)
  {
    assert forall i :: 0 <= i < |a| ==> a[i] == (a + b)[i];
    assert forall j :: 0 <= j < |b| ==> b[j] == (a + b)[|a| + j];
  }

  /** The point loop over two consecutive stretches of an array is the loop
      over the first followed by the loop over the second. */
  lemma {:induction false} PointPassesConcat(a: seq<Option<Light>>, b: seq<Option<Light>>)
    requires RangesNonZero(a + b)
    ensures RangesNonZero(a) && RangesNonZero(b)
    ensures PointPasses(a + b) == PointPasses(a) + PointPasses(b)
    decreases |b|
  {
    RangesSplit(a, b);
    if |b| == 0 {
      assert a + b == a;
    } else {
      var b' := b[..|b| - 1];
      assert (a + b)[..|a + b| - 1] == a + b';
      assert (a + b)[|a + b| - 1] == b[|b| - 1];
      PointPassesSnoc(a + b);
      PointPassesSnoc(b);
      PointPassesConcat(a, b');
    }
  }

  function SomeLight(l: Light): Option<Light> {
    Some(l)
  }

  /** The array with its null entries removed. */
  function Compact(ls: seq<Option<Light>>): (r: seq<Option<Light>>)
    ensures |r| == |Present(ls)|
  {
    Map(SomeLight, Present(ls))
  }

  lemma CompactSnoc(ls: seq<Option<Light>>)
    requires |ls| > 0 && ls[|ls| - 1].Some?
    ensures Compact(ls) == Compact(ls[..|ls| - 1]) + [ls[|ls| - 1]]
  {
    var l := ls[|ls| - 1].value;
    assert Present(ls) == Present(ls[..|ls| - 1]) + [l];
    MapConcat(SomeLight, Present(ls[..|ls| - 1]), [l]);
    assert Map(SomeLight, [l]) == [SomeLight(l)] by {
      assert [l][..0] == [];
    }
  }

  /** Null entries contribute nothing to the directional loop: the loop over
      the array issues what the loop over its non-null lights alone issues. */
  lemma {:induction false} DirectionalPassesSkipNulls(ls: seq<Option<Light>>, d: DeviceType)
    ensures DirectionalPasses(ls, d) == DirectionalPasses(Compact(ls), d)
    decreases |ls|
  {
    if |ls| > 0 {
      var prev := ls[..|ls| - 1];
      DirectionalPassesSnoc(ls, d);
      DirectionalPassesSkipNulls(prev, d);
      if ls[|ls| - 1].Some? {
        var k := Compact(ls);
        CompactSnoc(ls);
        assert k[..|k| - 1] == Compact(prev);
        DirectionalPassesSnoc(k, d);
      }
    }
  }

  /** Null entries contribute nothing to the point loop either. */
  lemma {:induction false} PointPassesSkipNulls(ls: seq<Option<Light>>)
    requires RangesNonZero(ls)
    ensures RangesNonZero(Compact(ls))
    ensures PointPasses(ls) == PointPasses(Compact(ls))
    decreases |ls|
  {
    if |ls| > 0 {
      var prev := ls[..|ls| - 1];
      PointPassesSnoc(ls);
      PointPassesSkipNulls(prev);
      if ls[|ls| - 1].Some? {
        var k := Compact(ls);
        CompactSnoc(ls);
        assert k[..|k| - 1] == Compact(prev);
        assert RangesNonZero(k) by {
          forall i | 0 <= i < |k| && k[i].Some?
            ensures k[i].value.range != 0.0
          {
            if i < |k| - 1 {
              assert k[i] == Compact(prev)[i];
            }
          }
        }
        PointPassesSnoc(k);
      }
    }
  }

  /** The directional loop draws once per non-null light. */
  lemma {:induction false} DirectionalPassesDrawCount(ls: seq<Option<Light>>, d: DeviceType)
    ensures |Filter(DirectionalPasses(ls, d), IsDraw)| == |Present(ls)|
    decreases |ls|
  {
    if |ls| > 0 {
      var prev := ls[..|ls| - 1];
      DirectionalPassesSnoc(ls, d);
      DirectionalPassesDrawCount(prev, d);
      if ls[|ls| - 1].Some? {
        var l := ls[|ls| - 1].value;
        DirectionalPassDraws(l, d);
        FilterConcat(DirectionalPasses(prev, d), DirectionalPass(l, d), IsDraw);
      }
    }
  }

  /** Every directional draw uses the backend's directional pass. */
  lemma {:induction false} DirectionalPassesPasses(ls: seq<Option<Light>>, d: DeviceType)
    ensures Filter(DirectionalPasses(ls, d), IsSetPass) == Repeat(SetPass(DirectionalPassIndex(d)), |Present(ls)|)
    decreases |ls|
  {
    if |ls| > 0 {
      var prev := ls[..|ls| - 1];
      DirectionalPassesSnoc(ls, d);
      DirectionalPassesPasses(prev, d);
      if ls[|ls| - 1].Some? {
        var l := ls[|ls| - 1].value;
        DirectionalPassDraws(l, d);
        FilterConcat(DirectionalPasses(prev, d), DirectionalPass(l, d), IsSetPass);
      }
    }
  }

  /** The direction parameters are set in array order, once per non-null
      light. */
  lemma {:induction false} DirectionalPassesOrder(ls: seq<Option<Light>>, d: DeviceType)
    ensures Filter(DirectionalPasses(ls, d), IsDirectionVector) == Map(DirectionVectorOf, Present(ls))
    decreases |ls|
  {
    if |ls| > 0 {
      var prev := ls[..|ls| - 1];
      DirectionalPassesSnoc(ls, d);
      DirectionalPassesOrder(prev, d);
      if ls[|ls| - 1].Some? {
        var l := ls[|ls| - 1].value;
        DirectionalPassParams(l, d);
        FilterConcat(DirectionalPasses(prev, d), DirectionalPass(l, d), IsDirectionVector);
        MapConcat(DirectionVectorOf, Present(prev), [l]);
        assert Map(DirectionVectorOf, [l]) == [DirectionVectorOf(l)] by {
          assert [l][..0] == [];
        }
      }
    }
  }

  /** The directional loop draws no mesh and never changes the render
      target. */
  lemma {:induction false} DirectionalPassesOnlyQuads(ls: seq<Option<Light>>, d: DeviceType)
    ensures Filter(DirectionalPasses(ls, d), IsMeshDraw) == []
    ensures Filter(DirectionalPasses(ls, d), ChangesTarget) == []
    decreases |ls|
  {
    if |ls| > 0 {
      var prev := ls[..|ls| - 1];
      DirectionalPassesSnoc(ls, d);
      DirectionalPassesOnlyQuads(prev, d);
      if ls[|ls| - 1].Some? {
        var l := ls[|ls| - 1].value;
        DirectionalPassDraws(l, d);
        DirectionalPassLayout(l, d);
        FilterConcat(DirectionalPasses(prev, d), DirectionalPass(l, d), IsMeshDraw);
        FilterConcat(DirectionalPasses(prev, d), DirectionalPass(l, d), ChangesTarget);
      }
    }
  }

  /** The point loop draws once per non-null light. */
  lemma {:induction false} PointPassesDrawCount(ls: seq<Option<Light>>)
    requires RangesNonZero(ls)
    ensures |Filter(PointPasses(ls), IsDraw)| == |Present(ls)|
    decreases |ls|
  {
    if |ls| > 0 {
      var prev := ls[..|ls| - 1];
      PointPassesSnoc(ls);
      PointPassesDrawCount(prev);
      if ls[|ls| - 1].Some? {
        var l := ls[|ls| - 1].value;
        PointPassDraws(l);
        FilterConcat(PointPasses(prev), PointPass(l), IsDraw);
      }
    }
  }

  /** Every point draw uses pass 2. */
  lemma {:induction false} PointPassesPasses(ls: seq<Option<Light>>)
    requires RangesNonZero(ls)
    ensures Filter(PointPasses(ls), IsSetPass) == Repeat(SetPass(2), |Present(ls)|)
    decreases |ls|
  {
    if |ls| > 0 {
      var prev := ls[..|ls| - 1];
      PointPassesSnoc(ls);
      PointPassesPasses(prev);
      if ls[|ls| - 1].Some? {
        var l := ls[|ls| - 1].value;
        PointPassDraws(l);
        FilterConcat(PointPasses(prev), PointPass(l), IsSetPass);
      }
    }
  }

  /** The mesh draws follow the non-null point lights in array order. */
  lemma {:induction false} PointPassesOrder(ls: seq<Option<Light>>)
    requires RangesNonZero(ls)
    ensures Filter(PointPasses(ls), IsMeshDraw) == Map(MeshDrawOf, Present(ls))
    decreases |ls|
  {
    if |ls| > 0 {
      var prev := ls[..|ls| - 1];
      PointPassesSnoc(ls);
      PointPassesOrder(prev);
      if ls[|ls| - 1].Some? {
        var l := ls[|ls| - 1].value;
        PointPassDraws(l);
        FilterConcat(PointPasses(prev), PointPass(l), IsMeshDraw);
        MapConcat(MeshDrawOf, Present(prev), [l]);
        assert Map(MeshDrawOf, [l]) == [MeshDrawOf(l)] by {
          assert [l][..0] == [];
        }
      }
    }
  }

  /** The point loop sets no direction parameter and never changes the
      render target. */
  lemma {:induction false} PointPassesNoDirections(ls: seq<Option<Light>>)
    requires RangesNonZero(ls)
    ensures Filter(PointPasses(ls), IsDirectionVector) == []
    ensures Filter(PointPasses(ls), IsDirectionalParameter) == []
    ensures Filter(PointPasses(ls), ChangesTarget) == []
    decreases |ls|
  {
    if |ls| > 0 {
      var prev := ls[..|ls| - 1];
      PointPassesSnoc(ls);
      PointPassesNoDirections(prev);
      if ls[|ls| - 1].Some? {
        var l := ls[|ls| - 1].value;
        PointPassParams(l);
        PointPassLayout(l);
        FilterConcat(PointPasses(prev), PointPass(l), IsDirectionVector);
        FilterConcat(PointPasses(prev), PointPass(l), IsDirectionalParameter);
        FilterConcat(PointPasses(prev), PointPass(l), ChangesTarget);
      }
    }
  }
}

=== FILE: protocol.dfy ===
/** The per-frame state machine of the deferred pipeline, as an automaton
    over commands, and the proof that the camera's frame follows it:
    Idle -> G-buffer bound -> result active and cleared -> directional
    accumulation* -> point accumulation* -> display cleared -> composite. */
module Protocol {
  import opened Seqs
  import opened Geometry
  import opened Backend
  import opened Commands
  import opened ScreenQuad
  import opened Lights
  import opened DeferredCamera

  datatype Phase =
    | Idle | GBufferBound | ResultActive
    | Directional | DirectionalArmed
    | Point | PointArmed
    | Display | DisplayCleared | CompositeArmed
    | Done

  /** The transition the state machine takes on one command, if any. Resizes
      happen only while idle; a full-screen light uses pass 0 or 1 and the
      fixed quad; a volume light uses pass 2 and a mesh; directional lights
      come before point lights; the composite is a black clear, pass 3 and
      the fixed quad. */
  function Step(p: Phase, c: Command): Option<Phase> {
    match p
    case Idle =>
      if c.ResetSize? then Some(Idle)
      else if c == SetMultipleRenderTargets(GBuffer, ResultBuffer, 0) then Some(GBufferBound)
      else None
    case GBufferBound =>
      if c == SetActive(ResultBuffer, 0) then Some(ResultActive) else None
    case ResultActive =>
      if c.ClearActive? && c.firstFlag && c.secondFlag then Some(Directional) else None
    case Directional =>
      if c.SetTexture? || IsDirectionalParameter(c) then Some(Directional)
      else if c == SetPass(0) || c == SetPass(1) then Some(DirectionalArmed)
      else if IsPointParameter(c) then Some(Point)
      else if c == ResetActive then Some(Display)
      else None
    case DirectionalArmed =>
      if c == DrawQuad(FullScreenQuad) then Some(Directional) else None
    case Point =>
      if IsPointParameter(c) then Some(Point)
      else if c == SetPass(2) then Some(PointArmed)
      else if c == ResetActive then Some(Display)
      else None
    case PointArmed =>
      if c.DrawMesh? then Some(Point) else None
    case Display =>
      if c.ClearScreen? && c.clearColor && c.clearDepth && c.color == Black then Some(DisplayCleared)
      else None
    case DisplayCleared =>
      if c == SetPass(3) then Some(CompositeArmed) else None
    case CompositeArmed =>
      if c == DrawQuad(FullScreenQuad) then Some(Done) else None
    case Done =>
      None
  }

  /** The phase reached from `p` after the commands `t`, if every step is
      allowed. */
  function Advance(p: Phase, t: seq<Command>): Option<Phase> {
    if |t| == 0 then Some(p)
    else
      match Advance(p, t[..|t| - 1])
      case None => None
      case Some(q) => Step(q, t[|t| - 1])
  }

  /** A whole frame: from idle to the drawn composite. */
  predicate Accepts(t: seq<Command>) {
    Advance(Idle, t) == Some(Done)
  }

  /** Running a concatenation is running its parts one after the other. */
  lemma {:induction false} AdvanceConcat(p: Phase, a: seq<Command>, b: seq<Command>)
    ensures Advance(p, a + b) == match Advance(p, a) case None => None case Some(q) => Advance(q, b)
    decreases |b|
  {
    if |b| == 0 {
      assert a + b == a;
    } else {
      var b' := b[..|b| - 1];
      assert (a + b)[..|a + b| - 1] == a + b';
      assert (a + b)[|a + b| - 1] == b[|b| - 1];
      AdvanceConcat(p, a, b');
    }
  }

  /** Running `a` then `b`, when `a` alone reaches `q`. */
  lemma AdvanceThrough(p: Phase, a: seq<Command>, q: Phase, b: seq<Command>)
    requires Advance(p, a) == Some(q)
    ensures Advance(p, a + b) == Advance(q, b)
  {
    AdvanceConcat(p, a, b);
  }

  lemma AdvanceSingleton(p: Phase, c: Command)
    ensures Advance(p, [c]) == Step(p, c)
  {
    assert [c][..0] == [];
  }

  lemma AdvancePair(p: Phase, c: Command, e: Command)
    ensures Advance(p, [c, e]) == match Step(p, c) case None => None case Some(q) => Step(q, e)
  {
    AdvanceConcat(p, [c], [e]);
    AdvanceSingleton(p, c);
    assert [c] + [e] == [c, e];
    if Step(p, c).Some? {
      AdvanceSingleton(Step(p, c).value, e);
    }
  }

  /** A directional light keeps the machine in the directional phase. */
  lemma DirectionalPassAdvance(l: Light, d: DeviceType)
    ensures Advance(Directional, DirectionalPass(l, d)) == Some(Directional)
  {
    var params := [DirectionVectorOf(l), SetColor(DirLightColor, l.color)];
    var quad := [SetPass(SelectPass(d, 0, false)), DrawQuad(FullScreenQuad)];
    assert DirectionalPass(l, d) == params + quad;
    AdvanceConcat(Directional, params, quad);
    AdvancePair(Directional, params[0], params[1]);
    AdvancePair(Directional, quad[0], quad[1]);
  }

  lemma {:induction false} DirectionalPassesAdvance(ls: seq<Option<Light>>, d: DeviceType)
    ensures Advance(Directional, DirectionalPasses(ls, d)) == Some(Directional)
    decreases |ls|
  {
    if |ls| > 0 {
      var prev := ls[..|ls| - 1];
      DirectionalPassesSnoc(ls, d);
      DirectionalPassesAdvance(prev, d);
      if ls[|ls| - 1].Some? {
        var l := ls[|ls| - 1].value;
        AdvanceConcat(Directional, DirectionalPasses(prev, d), DirectionalPass(l, d));
        DirectionalPassAdvance(l, d);
      }
    }
  }

  /** A point light, entered from either lighting phase, leaves the machine
      in the point phase. */
  lemma PointPassAdvance(l: Light, p: Phase)
    requires l.range != 0.0
    requires p == Directional || p == Point
    ensures Advance(p, PointPass(l)) == Some(Point)
  {
    var params := [SetVector(PointLightPos, Extend(l.position)),
                   SetColor(PointLightColor, l.color),
                   SetVector(PointLightRange, RangeParam(l))];
    var draw := [SetPass(2), MeshDrawOf(l)];
    AdvanceConcat(p, params, draw);
    AdvanceConcat(p, params[..2], [params[2]]);
    assert params[..2] + [params[2]] == params;
    AdvancePair(p, params[0], params[1]);
    AdvanceSingleton(Point, params[2]);
    AdvancePair(Point, draw[0], draw[1]);
  }

  lemma {:induction false} PointPassesAdvance(ls: seq<Option<Light>>, p: Phase)
    requires RangesNonZero(ls)
    requires p == Directional || p == Point
    ensures Advance(p, PointPasses(ls)) == Some(Directional) || Advance(p, PointPasses(ls)) == Some(Point)
    decreases |ls|
  {
    if |ls| > 0 {
      var prev := ls[..|ls| - 1];
      PointPassesSnoc(ls);
      PointPassesAdvance(prev, p);
      if ls[|ls| - 1].Some? {
        var l := ls[|ls| - 1].value;
        AdvanceConcat(p, PointPasses(prev), PointPass(l));
        PointPassAdvance(l, Advance(p, PointPasses(prev)).value);
      }
    }
  }

  lemma PrologueAdvance()
    ensures Advance(GBufferBound, PostRenderPrologue) == Some(Directional)
  {
    var t := PostRenderPrologue;
    AdvanceConcat(GBufferBound, t[..2], t[2..]);
    assert t[..2] + t[2..] == t;
    AdvancePair(GBufferBound, t[0], t[1]);
    AdvanceConcat(Directional, t[2..4], t[4..]);
    assert t[2..4] + t[4..] == t[2..];
    AdvancePair(Directional, t[2], t[3]);
    AdvancePair(Directional, t[4], t[5]);
    assert t[2..4] == [t[2], t[3]] && t[4..] == [t[4], t[5]];
  }

  lemma EpilogueAdvance(d: DeviceType, p: Phase)
    requires p == Directional || p == Point
    ensures Advance(p, PostRenderEpilogue(d)) == Some(Done)
  {
    var t := [ResetActive, ClearToBlack, SetPass(3), DrawQuad(FullScreenQuad)];
    EpilogueLiteral(d);
    assert t[..3][..2] == [ResetActive, ClearToBlack];
    AdvancePair(p, ResetActive, ClearToBlack);
  }

  lemma PreRenderAdvance(c: CameraState, screen: Screen)
    requires PreRender(c, screen).outcome == Completed
    ensures Advance(Idle, PreRender(c, screen).commands) == Some(GBufferBound)
  {
    var t := PreRender(c, screen).commands;
    AdvanceConcat(Idle, t[..2], [t[2]]);
    assert t[..2] + [t[2]] == t;
    AdvancePair(Idle, t[0], t[1]);
    AdvanceSingleton(Idle, t[2]);
  }

  /** Chaining the phases of the five parts of a frame. */
  lemma AdvanceFrameParts(a: seq<Command>, b: seq<Command>, dirs: seq<Command>,
                          points: seq<Command>, e: seq<Command>)
    requires Advance(Idle, a) == Some(GBufferBound)
    requires Advance(GBufferBound, b) == Some(Directional)
    requires Advance(Directional, dirs) == Some(Directional)
    requires Advance(Directional, points) == Some(Directional) || Advance(Directional, points) == Some(Point)
    requires Advance(Directional, e) == Some(Done) && Advance(Point, e) == Some(Done)
    ensures Advance(Idle, a + (b + (dirs + (points + e)))) == Some(Done)
  {
    var q := Advance(Directional, points).value;
    assert Advance(Directional, points + e) == Some(Done) by {
      AdvanceThrough(Directional, points, q, e);
    }
    assert Advance(Directional, dirs + (points + e)) == Some(Done) by {
      AdvanceThrough(Directional, dirs, Directional, points + e);
    }
    assert Advance(GBufferBound, b + (dirs + (points + e))) == Some(Done) by {
      AdvanceThrough(GBufferBound, b, Directional, dirs + (points + e));
    }
    assert Advance(Idle, a + (b + (dirs + (points + e)))) == Some(Done) by {
      AdvanceThrough(Idle, a, GBufferBound, b + (dirs + (points + e)));
    }
  }

  /** A frame of a camera whose buffers exist and whose point loop can draw
      runs the whole state machine: the pre-render commands followed by the
      post-render commands are an accepted frame. */
  lemma FrameFollowsProtocol(c: CameraState, screen: Screen, d: DeviceType)
    requires RangesNonZero(Entries(c.pointLights))
    requires c.gbuffer.Some? && c.result.Some? && MeshAvailable(c)
    ensures Accepts(PreRender(c, screen).commands + PostRender(c, d).commands)
  {
    var dirs := DirectionalPasses(Entries(c.dirLights), d);
    var points := PointPasses(Entries(c.pointLights));
    PostRenderCompletedRun(c, d);
    FullFrameNested(c, d);
    PreRenderAdvance(c, screen);
    PrologueAdvance();
    DirectionalPassesAdvance(Entries(c.dirLights), d);
    PointPassesAdvance(Entries(c.pointLights), Directional);
    EpilogueAdvance(d, Directional);
    EpilogueAdvance(d, Point);
    AdvanceFrameParts(PreRender(c, screen).commands, PostRenderPrologue,
                      dirs, points, PostRenderEpilogue(d));
  }
}

=== FILE: screen_quad.dfy ===
/** `DrawScreenQuad`: an optional clear, the selected shader pass and the
    fixed full-screen quad. */
module ScreenQuad {
  import opened Seqs
  import opened Geometry
  import opened Backend
  import opened Commands

  /** `GL.Clear(true, true, Color.black)`; the engine clears depth to 1.0
      when no depth is given. */
  const ClearToBlack := ClearScreen(true, true, Black, 1.0)

  lemma QuadBodyFilters(p: int)
    ensures Filter([SetPass(p), DrawQuad(FullScreenQuad)], IsDraw) == [DrawQuad(FullScreenQuad)]
    ensures Filter([SetPass(p), DrawQuad(FullScreenQuad)], IsSetPass) == [SetPass(p)]
  {
    var body := [SetPass(p), DrawQuad(FullScreenQuad)];
    assert body[..1] == [SetPass(p)];
    FilterSingleton(SetPass(p), IsDraw);
    FilterSingleton(SetPass(p), IsSetPass);
  }

  /** The commands of one `DrawScreenQuad(mtrl, pass, isScreen, clearScreen)`
      call on device `d`. */
  function DrawScreenQuad(d: DeviceType, pass: int, isScreen: bool, clearScreen: bool): seq<Command> {
    (if clearScreen then [ClearToBlack] else [])
    + [SetPass(SelectPass(d, pass, isScreen)), DrawQuad(FullScreenQuad)]
  }

  /** A screen quad is exactly one draw, of the fixed quad, with exactly one
      pass selection before it, preceded by a clear to black exactly when
      `clearScreen` is set. */
  lemma DrawScreenQuadCommands(d: DeviceType, pass: int, isScreen: bool, clearScreen: bool)
    ensures var r := DrawScreenQuad(d, pass, isScreen, clearScreen);
      && 0 < |r| && r[|r| - 1] == DrawQuad(FullScreenQuad)
      && Filter(r, IsDraw) == [DrawQuad(FullScreenQuad)]
      && Filter(r, IsSetPass) == [SetPass(SelectPass(d, pass, isScreen))]
      && (ClearToBlack in r <==> clearScreen)
      && (clearScreen ==> r[0] == ClearToBlack)
  {
    var body := [SetPass(SelectPass(d, pass, isScreen)), DrawQuad(FullScreenQuad)];
    QuadBodyFilters(SelectPass(d, pass, isScreen));
    if clearScreen {
      FilterConcat([ClearToBlack], body, IsDraw);
      FilterConcat([ClearToBlack], body, IsSetPass);
      FilterSingleton(ClearToBlack, IsDraw);
      FilterSingleton(ClearToBlack, IsSetPass);
    } else {
      assert DrawScreenQuad(d, pass, isScreen, clearScreen) == body;
    }
  }

  /** Every command of a screen quad is the clear, a pass selection or the
      quad draw. */
  lemma DrawScreenQuadElements(d: DeviceType, pass: int, isScreen: bool, clearScreen: bool)
    ensures forall i :: 0 <= i < |DrawScreenQuad(d, pass, isScreen, clearScreen)| ==>
      var c := DrawScreenQuad(d, pass, isScreen, clearScreen)[i];
      c == ClearToBlack || c.SetPass? || c == DrawQuad(FullScreenQuad)
  {
    var body := [SetPass(SelectPass(d, pass, isScreen)), DrawQuad(FullScreenQuad)];
    if clearScreen {
      assert DrawScreenQuad(d, pass, isScreen, clearScreen) == [ClearToBlack] + body;
    } else {
      assert DrawScreenQuad(d, pass, isScreen, clearScreen) == body;
    }
  }

  /** A screen quad sets no light parameter, draws no mesh and does not
      change the render target. */
  lemma DrawScreenQuadNoLightCommands(d: DeviceType, pass: int, isScreen: bool, clearScreen: bool)
    ensures Filter(DrawScreenQuad(d, pass, isScreen, clearScreen), IsMeshDraw) == []
    ensures Filter(DrawScreenQuad(d, pass, isScreen, clearScreen), IsDirectionVector) == []
    ensures Filter(DrawScreenQuad(d, pass, isScreen, clearScreen), IsLightParameter) == []
    ensures Filter(DrawScreenQuad(d, pass, isScreen, clearScreen), ChangesTarget) == []
  {
    DrawScreenQuadElements(d, pass, isScreen, clearScreen);
    FilterNone(DrawScreenQuad(d, pass, isScreen, clearScreen), IsMeshDraw);
    FilterNone(DrawScreenQuad(d, pass, isScreen, clearScreen), IsDirectionVector);
    FilterNone(DrawScreenQuad(d, pass, isScreen, clearScreen), IsLightParameter);
    FilterNone(DrawScreenQuad(d, pass, isScreen, clearScreen), ChangesTarget);
  }

  /** The vertex list is the same whichever pass, flag or backend is used:
      the flip is carried only by the pass index. */
  lemma QuadGeometryIndependentOfPass(d: DeviceType, pass: int, isScreen: bool, clearScreen: bool,
                                      e: DeviceType, pass': int, isScreen': bool, clearScreen': bool)
    ensures Filter(DrawScreenQuad(d, pass, isScreen, clearScreen), IsDraw)
         == Filter(DrawScreenQuad(e, pass', isScreen', clearScreen'), IsDraw)
  {
    DrawScreenQuadCommands(d, pass, isScreen, clearScreen);
    DrawScreenQuadCommands(e, pass', isScreen', clearScreen');
  }
}

=== FILE: seqs.dfy ===
/** Small sequence vocabulary shared by the trace model: optional values,
    filtering, mapping and repetition, with the concatenation facts the
    trace proofs rely on. */
module Seqs {

  /** A value that may be absent; models a C# reference that may be null. */
  datatype Option<+T> = None | Some(value: T)

  /** The elements of `s` that satisfy `p`, in their original order. */
  function Filter<T>(s: seq<T>, p: T -> bool): (r: seq<T>)
    ensures |r| <= |s|
  {
    if |s| == 0 then []
    else Filter(s[..|s| - 1], p) + (if p(s[|s| - 1]) then [s[|s| - 1]] else [])
  }

  /** `f` applied to every element of `s`, in order. */
  function Map<A, B>(f: A -> B, s: seq<A>): (r: seq<B>)
    ensures |r| == |s|
  {
    if |s| == 0 then [] else Map(f, s[..|s| - 1]) + [f(s[|s| - 1])]
  }

  /** `n` copies of `x`. */
  function Repeat<T>(x: T, n: nat): (r: seq<T>)
    ensures |r| == n
  {
    if n == 0 then [] else Repeat(x, n - 1) + [x]
  }

  lemma FilterSingleton<T>(x: T, p: T -> bool)
    ensures Filter([x], p) == if p(x) then [x] else []
  {
    assert [x][..0] == [];
  }

  /** Filtering distributes over concatenation. */
  lemma {:induction false} FilterConcat<T>(a: seq<T>, b: seq<T>, p: T -> bool)
    ensures Filter(a + b, p) == Filter(a, p) + Filter(b, p)
    decreases |b|
  {
    if |b| == 0 {
      assert a + b == a;
    } else {
      var b' := b[..|b| - 1];
      assert (a + b)[..|a + b| - 1] == a + b';
      assert (a + b)[|a + b| - 1] == b[|b| - 1];
      FilterConcat(a, b', p);
    }
  }

  /** Mapping distributes over concatenation. */
  lemma {:induction false} MapConcat<A, B>(f: A -> B, a: seq<A>, b: seq<A>)
    ensures Map(f, a + b) == Map(f, a) + Map(f, b)
    decreases |b|
  {
    if |b| == 0 {
      assert a + b == a;
    } else {
      var b' := b[..|b| - 1];
      assert (a + b)[..|a + b| - 1] == a + b';
      assert (a + b)[|a + b| - 1] == b[|b| - 1];
      MapConcat(f, a, b');
    }
  }

  lemma FilterConcat4<T>(a: seq<T>, b: seq<T>, c: seq<T>, e: seq<T>, p: T -> bool)
    ensures Filter(a + b + c + e, p) == Filter(a, p) + Filter(b, p) + Filter(c, p) + Filter(e, p)
  {
    FilterConcat(a + b + c, e, p);
    FilterConcat(a + b, c, p);
    FilterConcat(a, b, p);
  }

  /** Nothing survives a filter that no element satisfies. */
  lemma {:induction false} FilterNone<T>(s: seq<T>, p: T -> bool)
    requires forall i :: 0 <= i < |s| ==> !p(s[i])
    ensures Filter(s, p) == []
    decreases |s|
  {
    if |s| > 0 {
      FilterNone(s[..|s| - 1], p);
    }
  }

  /** An empty filter result means no element satisfies the predicate. */
  lemma {:induction false} FilterEmptyNone<T>(s: seq<T>, p: T -> bool)
    requires Filter(s, p) == []
    ensures forall i :: 0 <= i < |s| ==> !p(s[i])
    decreases |s|
  {
    if |s| > 0 {
      FilterEmptyNone(s[..|s| - 1], p);
      assert forall i :: 0 <= i < |s| - 1 ==> s[i] == s[..|s| - 1][i];
    }
  }

  /** The first element of a mapped sequence is the image of the first. */
  lemma {:induction false} MapHead<A, B>(f: A -> B, s: seq<A>)
    requires |s| > 0
    ensures Map(f, s)[0] == f(s[0])
    decreases |s|
  {
    if |s| > 1 {
      MapHead(f, s[..|s| - 1]);
    }
  }
}
